=== FILE: README.md ===
# seo_article_agent core, modelled in Dafny

This project models the sequential, stateful core of the SEO article
agent. The rest of the program is LLM prompts and HTTP plumbing.

- **Crawler** (`crawler.dfy`) models `crawl_site`. It is a bounded
  breadth-first walk from a root URL. A `seen` set discards duplicates
  when they are dequeued. Only same-host, non-fragment links are followed.
  A failed fetch is skipped, a blank page stores nothing, and a stored
  text is cut to 20 000 characters.
  - The web is a `World`: a finite map from URL to an optional page (its
    text and its hrefs).
  - `urljoin` and `netloc` are uninterpreted functions carried by the
    `World`.
  - `Crawl` is the loop. `Reach(k)` is the set of URLs within `k`
    followed links of the root. The loop is proved to fetch level by level:
    a URL within `k` links is never fetched after one that is not. What
    it stores is then fixed up to the order of the hrefs within the last
    level it reaches (see "Left out").
- **KeywordDensity** (`density.dfy`) models `keyword_density`. It counts
  the positions at which the keyword's tokens start, overlaps included,
  and gives the exact ratio `100 * hits / max(1, n)`.
- **VectorStore** (`vector_store.dfy`) models `build_vector_store`.
  - It refuses an empty page dict.
  - It uploads each page's text in order, stopping at the first upload that
    raises.
  - It then creates one store from the file ids.
  - The OpenAI endpoints are a `Service` class. The class records what it
    was sent and the stores it holds. It answers from replies given in
    advance.
- **Mcp** (`mcp.dfy`) models two functions.
  - `_instantiate` runs over decoded JSON (`Json`). It handles the enabled
    flag, the stdio and sse cases, unknown types, missing keys that are
    logged, and the AttributeError that a non-dict raises.
  - `connect_mcp` is a per-server lifecycle (`Connection`). The answers of
    `connect()` and `cleanup()` are fixed per server. The connect loop
    keeps the servers that connected. The `finally` cleans them up once
    each, in order, until a cleanup raises a BaseException that is neither
    an Exception nor a CancelledError. That ends the loop, so later
    servers get no cleanup, and it replaces any exception already
    propagating.
- **Agents** (`agents.dfy`) models the module-level state of `agents.py`.
  - `BASE_TOOLS`, `VECTOR_STORE_IDS`, `MCP_SERVERS` and the five agents
    form a `Registry` class.
  - The class has `update_vector_store_ids` and `update_mcp_servers`.
  - Tools form a datatype.
- **Wrappers** (`wrappers.dfy`) holds `Option` and `Result`.

Two behaviours of the code worth knowing:

- A root URL that cannot be fetched makes `crawl_site` return an empty
  dict. It does not raise (`tools.py:38-41`).
- `build_vector_store` refuses only an empty `pages` dict. It does not
  check for pages whose texts are all empty (`tools.py:59-60`).

## Model

| member | source | states |
|---|---|---|
| Crawler.Crawl | src/seo_agent/tools.py:28-55 | at most `limit` entries, none when `limit <= 0`; every entry is a fetched non-blank page with its text cut to 20 000 characters (non-empty, at most 20 000); every key is on the root's host and reachable from the root; a failing root gives `{}`; `fetched` lists the URLs visited, each once, all reachable, starting with the root when `limit > 0`; the keys are exactly the kept pages among them, so the walk stops right after the `limit`-th kept page (the last URL fetched is then kept); when the limit is not reached every reachable kept page is stored; the fetch order is breadth-first (for every `k`, the URLs within `k` links of the root come before all others), and every URL strictly nearer to the root than the last one fetched is fetched, and stored when kept; the loop terminates on any finite site, cycles included |
| Crawler.Fetch | src/seo_agent/tools.py:38-41 | a fetch returns a page only for a URL the world maps to that page; any other URL raises |
| Crawler.IsSpace | src/seo_agent/tools.py:45 | `str.isspace` for one character: space and `\t`..`\r` are whitespace, no ASCII word character is |
| Crawler.StripLeading | src/seo_agent/tools.py:45 | what is left after stripping leading whitespace is empty or starts with a non-space |
| Crawler.StripLeadingSuffix | src/seo_agent/tools.py:45 | stripping removes only a run of whitespace at the front and leaves the rest of the text |
| Crawler.IsBlank | src/seo_agent/tools.py:45 | `txt.strip()` is empty: stripping the leading whitespace leaves nothing |
| Crawler.BlankIffStripped | src/seo_agent/tools.py:45 | every character is whitespace iff stripping the leading whitespace leaves nothing |
| Crawler.StartsWithHash | src/seo_agent/tools.py:50 | `href.startswith("#")`: `#` is a prefix of the href |
| Crawler.Followed | src/seo_agent/tools.py:50-53 | a fragment href is never followed, and a followed href resolves to a URL on the root's host |
| Crawler.Links | src/seo_agent/tools.py:38-54 | the links a page yields: none when its fetch fails, at most one per href, all on the root's host |
| Crawler.EnqueueLinks | src/seo_agent/tools.py:48-54 | the anchor scan appends exactly `Targets` of the page's hrefs to the queue |
| Crawler.Targets | src/seo_agent/tools.py:48-54 | at most one URL per href, and every URL appended is on the root's host |
| Crawler.TargetsSnoc | src/seo_agent/tools.py:49-54 | scanning one more href appends its resolved URL exactly when it is not a `#` link and is on the root's host |
| Crawler.TargetsExactly | src/seo_agent/tools.py:48-54 | a URL is appended iff some href that does not start with `#` resolves to it on the root's host |
| Crawler.Truncate | src/seo_agent/tools.py:46 | `txt[:20_000]` is a prefix of the text of length exactly `min(len(txt), 20 000)` |
| Crawler.StepIncludesLinks | src/seo_agent/tools.py:48-54 | a link followed from a page in a set is in the next breadth-first step |
| Crawler.ReachSameHost | src/seo_agent/tools.py:53-54 | every URL reachable from the root is on the root's host |
| Crawler.FailedRootReach | src/seo_agent/tools.py:38-41 | when the root's fetch fails, nothing but the root is reachable |
| Crawler.ClosedContainsReach | src/seo_agent/tools.py:33-54 | a set holding the root and closed under followed links holds every reachable URL |
| Crawler.CrawlInvInit | src/seo_agent/tools.py:29-30 | the initial state (`seen` empty, queue `[root]`, `texts` empty) satisfies the loop invariant, including that the walk starts at the root |
| Crawler.LogVisit | src/seo_agent/tools.py:35-37 | adding an unseen URL to `seen` keeps the fetch log duplicate-free |
| Crawler.TextsVisit | src/seo_agent/tools.py:45-46 | storing a kept page below the limit keeps `texts` equal to the kept visited pages, within the limit |
| Crawler.SkipKeepsCover | src/seo_agent/tools.py:35-36 | dropping a seen URL from the queue keeps every unvisited link queued |
| Crawler.VisitKeepsCover | src/seo_agent/tools.py:37-54 | visiting a URL and appending its links keeps every unvisited link queued |
| Crawler.SkipPreserves | src/seo_agent/tools.py:34-36 | dequeuing a seen URL preserves the loop invariant |
| Crawler.VisitPreserves | src/seo_agent/tools.py:34-54 | visiting an unseen URL preserves the invariant and shrinks the unvisited part of the site, or the queue when the URL is not a page |
| Crawler.VisitKeepsLog | src/seo_agent/tools.py:37-46 | a visit keeps the fetch log duplicate-free, `texts` equal to the kept visited pages, and the walk rooted at the root |
| Crawler.VisitKeepsQueue | src/seo_agent/tools.py:34-54 | a visit keeps everything visited or queued reachable and every unvisited link queued |
| Crawler.RootFirstVisit | src/seo_agent/tools.py:34-46 | after a visit the first URL fetched is still the root, and a limit reached is reached by storing the page just visited |
| Crawler.IterationPreserves | src/seo_agent/tools.py:33-54 | one iteration of the loop, skip or visit, keeps the invariant and the level structure, consumes one entry of the current level, and decreases the termination measure |
| Crawler.VisitPage | src/seo_agent/tools.py:39-54 | fetching a URL stores its truncated text exactly when it is kept and appends exactly its followed links to the queue; a failed fetch changes nothing |
| Crawler.ReachMono | src/seo_agent/tools.py:33-54 | the URLs within `j` links are among those within `k` links when `j <= k` |
| Crawler.LevelsInit | src/seo_agent/tools.py:29-30 | the initial queue `[root]` is level 0 and nothing is fetched yet |
| Crawler.LevelsAdvance | src/seo_agent/tools.py:33-34 | when the current level is used up, every URL of the next level is visited or queued, so the queue is the next level |
| Crawler.LevelsSkip | src/seo_agent/tools.py:34-36 | dequeuing a seen URL consumes one entry of the current level |
| Crawler.LevelsVisit | src/seo_agent/tools.py:34-54 | visiting a URL of the current level keeps the fetch order breadth-first and puts its links in the next level |
| Crawler.LevelsVisitQueue | src/seo_agent/tools.py:34-54 | after a visit the rest of the current level stays at the front of the queue and the links appended lie one level further |
| Crawler.NoNearerThanFetched | src/seo_agent/tools.py:34-37 | a URL not yet visited is no nearer to the root than any URL already fetched |
| Crawler.BreadthFirstVisit | src/seo_agent/tools.py:34-37 | appending an unvisited URL to the fetch log keeps it breadth-first |
| Crawler.LevelsDone | src/seo_agent/tools.py:33 | when the loop stops, every URL strictly nearer to the root than the last URL fetched has been fetched |
| Crawler.LinkReachable | src/seo_agent/tools.py:48-54 | a link followed from a reachable page is reachable |
| Crawler.VisitReachable | src/seo_agent/tools.py:34-54 | visiting a reachable URL keeps everything visited or queued reachable |
| Crawler.StoredReachable | src/seo_agent/tools.py:38-54 | stored pages are on the root's host, and nothing is stored when the root fails |
| Crawler.StoredComplete | src/seo_agent/tools.py:33-54 | with an empty queue, every reachable kept page is stored |
| Crawler.CrawlDone | src/seo_agent/tools.py:33-55 | the invariant and the loop's exit condition give `Crawl`'s promises: the keys are exactly the kept pages among those fetched, every fetched URL is reachable, the fetch order is breadth-first and everything nearer than the last URL fetched is fetched, plus the bounds, host, completeness and failing-root facts |
| KeywordDensity.HitsBelow | src/seo_agent/tools.py:80 | the matches counted below position `n` are at most `n` |
| KeywordDensity.Hits | src/seo_agent/tools.py:80 | `hits <= len(tokens)` |
| KeywordDensity.Density | src/seo_agent/tools.py:77-81 | the density lies in [0, 100], and is 0 for an empty text (`max(1, n)`) |
| KeywordDensity.MatchesAtExactly | src/seo_agent/tools.py:80 | the clipped slice equals the keyword iff the keyword fits at that position and matches |
| KeywordDensity.HitsCountsPositions | src/seo_agent/tools.py:80 | `hits` is the number of distinct start positions, so overlapping occurrences each count |
| KeywordDensity.EmptyKeywordMatchesEverywhere | src/seo_agent/tools.py:79-81 | an empty keyword matches at every position, giving 100 for any non-empty text |
| KeywordDensity.HitsFit | src/seo_agent/tools.py:80 | a non-empty keyword has at most `n - len(kw) + 1` hits, and none when longer than the text |
| KeywordDensity.OverlappingBothCount | src/seo_agent/tools.py:80 | `["a","a"]` occurs twice in `["a","a","a"]` |
| VectorStore.Service.constructor | src/seo_agent/tools.py:20 | a service that has been sent nothing and holds no stores |
| VectorStore.Service.CreateFile | src/seo_agent/tools.py:68 | the content is sent and the next reply, an id or a raise, is consumed |
| VectorStore.Service.CreateStore | src/seo_agent/tools.py:73 | a store with the name and file ids exists afterwards exactly when the call returns an id |
| VectorStore.Texts | src/seo_agent/tools.py:63-65 | one uploaded text per page, in iteration order |
| VectorStore.FirstFailure | src/seo_agent/tools.py:63-69 | the index of the first upload that raises: every earlier upload returns an id |
| VectorStore.FileIds | src/seo_agent/tools.py:62-69 | when every upload returns, exactly one file id per page, in order |
| VectorStore.TextsSnoc | src/seo_agent/tools.py:63-68 | uploading one more page adds its text at the end of what is sent |
| VectorStore.UploadStep | src/seo_agent/tools.py:63-69 | the next upload gets the next reply; when it raises it is the first failure and the last attempt, when it returns the uploads so far all succeeded |
| VectorStore.FileIdsSnoc | src/seo_agent/tools.py:68-69 | one more successful upload adds its id at the end |
| VectorStore.UploadAll | src/seo_agent/tools.py:62-71 | the texts up to and including the first upload that raises are sent in order; a raise fails, labelled with the URL of the page the loop stopped at; otherwise one file id per page, in order |
| VectorStore.Build | src/seo_agent/tools.py:58-74 | an empty `pages` fails with nothing sent; otherwise the texts up to and including the first failing upload are sent in order; a failed upload fails, labelled with the URL of the page the loop stopped at, and creates no store; when all succeed, one store named `slugify(name)` holds one file id per page in order, and its id is returned, or the build fails with nothing created |
| Mcp.Lookup | src/seo_agent/mcp.py:20 | `cfg[key]` finds the value stored under the key, and fails iff the key is absent |
| Mcp.Truthy | src/seo_agent/mcp.py:17 | a JSON value is falsy exactly when it is null, false, zero, or an empty string, array or object |
| Mcp.Outcome | src/seo_agent/mcp.py:17-35 | one entry raises iff it is not a dict; anything but a skip needs a truthy `enabled`; a server built carries the entry's name and matches its `type`; a logged entry misses `type`, or `command` for stdio, or `url` for sse |
| Mcp.Collect | src/seo_agent/mcp.py:16-37 | every logged name is the name of some entry |
| Mcp.Entries | src/seo_agent/mcp.py:16 | the entries of the `servers` section: a missing section gives none; the settings or the section not being a dict raises |
| Mcp.Instantiate | src/seo_agent/mcp.py:14-38 | settings that are not a dict raise; settings without a `servers` section give no server and no log line |
| Mcp.InstantiateServers | src/seo_agent/mcp.py:14-38 | the loop computes `Instantiate`, and yields no more servers plus logged names than there are entries |
| Mcp.CollectFailurePersists | src/seo_agent/mcp.py:16-17 | once an entry raises outside the `try`, no later entry changes the outcome |
| Mcp.CollectAppend | src/seo_agent/mcp.py:16-37 | the result for `a + b` is the result for `a` followed by that for `b`: entries are processed in config order, and a skipped or logged entry does not stop later ones |
| Mcp.CollectBound | src/seo_agent/mcp.py:16-38 | the servers plus the logged names are no more than the entries |
| Mcp.CollectFailsIff | src/seo_agent/mcp.py:16-17 | the loop over the entries raises iff some entry is not a dict (`_instantiate` also raises, before the loop, when the settings or the `servers` section is not a dict; see `Mcp.Entries`) |
| Mcp.ServersFromEnabledEntries | src/seo_agent/mcp.py:16-35 | every server built comes from an entry of the same name whose `enabled` is truthy |
| Mcp.DisabledEntryIgnored | src/seo_agent/mcp.py:17-18 | an entry without a truthy `enabled` contributes nothing, wherever it stands |
| Mcp.StdioEntryBuilt | src/seo_agent/mcp.py:20-27 | an enabled stdio entry with `command` puts a stdio server with that command and `args` (default `[]`) at its own position |
| Mcp.SseEntryBuilt | src/seo_agent/mcp.py:28-35 | an enabled sse entry with `url` puts an sse server with that url at its own position |
| Mcp.UnknownTypeDropped | src/seo_agent/mcp.py:20-35 | an enabled entry of any other type contributes nothing and logs nothing |
| Mcp.MissingKeyLogged | src/seo_agent/mcp.py:19-37 | an enabled entry missing `type`, `command` or `url` is logged by name and yields no server, and later entries still run |
| Mcp.Connection.constructor | src/seo_agent/mcp.py:21-34 | a new server starts unconnected with no cleanup made |
| Mcp.Connection.Connect | src/seo_agent/mcp.py:47 | the server is connected exactly when its connect returns |
| Mcp.Connection.Cleanup | src/seo_agent/mcp.py:56 | one more cleanup call; the server is cleaned only when it returns |
| Mcp.FirstCancelled | src/seo_agent/mcp.py:45-51 | the first connect that is cancelled: no earlier one is |
| Mcp.FirstInterrupted | src/seo_agent/mcp.py:54-60 | the first cleanup that is interrupted: no earlier one is |
| Mcp.Succeeded | src/seo_agent/mcp.py:45-48 | the kept servers are no more than the servers |
| Mcp.SucceededExactly | src/seo_agent/mcp.py:45-51 | a server is kept iff its connect returned |
| Mcp.SucceededAppend | src/seo_agent/mcp.py:45-48 | the kept servers stay in their original order |
| Mcp.SucceededDistinct | src/seo_agent/mcp.py:45-48 | no server is kept twice |
| Mcp.ConnectAll | src/seo_agent/mcp.py:45-51 | `connected` is the servers before the first cancelled connect whose connect returned, in order; the others before it failed, later ones are untouched |
| Mcp.CleanupAll | src/seo_agent/mcp.py:53-62 | each connected server gets exactly one cleanup, in order, whatever earlier cleanups did, up to an interrupted one |
| Mcp.ConnectMcp | src/seo_agent/mcp.py:40-62 | `connected` is exactly the servers whose connect returned, in order; even when the body raises or a connect is cancelled, each connected server gets exactly one cleanup, in order, whatever earlier cleanups did, until a cleanup raises a BaseException that is neither an Exception nor a CancelledError: that ends the loop, later servers get no cleanup, and it replaces any exception already propagating; servers that did not connect are never cleaned up; the exception that ends the block is the one the code propagates |
| Agents.StoreIdsAfter | src/seo_agent/agents.py:53-55 | `VECTOR_STORE_IDS` after the update holds `vs_id` alone, or nothing for an empty id |
| Agents.ToolsAfter | src/seo_agent/agents.py:59-64 | `BASE_TOOLS` after the update grows by at most one tool, and every FileSearchTool in it is bound to `[vs_id]` with 6 results |
| Agents.WithoutFileSearch | src/seo_agent/agents.py:59 | the filtered list holds no FileSearchTool and is no longer than before |
| Agents.Agent.constructor | src/seo_agent/agents.py:78-87 | an agent holding the given tools and servers |
| Agents.Registry.constructor | src/seo_agent/agents.py:37-138 | `BASE_TOOLS` is `[WebSearch, kw_density]`, the four sub-agents hold it, the Coordinator holds `[]`, and no store ids or servers are set |
| Agents.Registry.UpdateVectorStoreIds | src/seo_agent/agents.py:46-75 | `VECTOR_STORE_IDS` is `[vs_id]`, or `[]` for an empty id; `BASE_TOOLS` is the filtered list plus, for a non-empty id, one FileSearchTool; all five agents, the Coordinator included, hold `BASE_TOOLS`; servers are untouched |
| Agents.Registry.UpdateMcpServers | src/seo_agent/agents.py:140-157 | `MCP_SERVERS` and every agent's servers equal `servers` in order, with the previous servers gone; tools are untouched |
| Agents.WithoutFileSearchAppend | src/seo_agent/agents.py:59 | the filter keeps the other tools in their relative order |
| Agents.WithoutFileSearchKeeps | src/seo_agent/agents.py:59 | a tool survives the filter iff it is not a FileSearchTool |
| Agents.WithoutFileSearchIdentity | src/seo_agent/agents.py:59 | a list without FileSearchTools is unchanged by the filter |
| Agents.FileSearchCountAppend | src/seo_agent/agents.py:59-64 | the FileSearchTool count adds up over concatenation |
| Agents.FileSearchCountZero | src/seo_agent/agents.py:59 | the filtered list counts no FileSearchTool |
| Agents.FileSearchReplaced | src/seo_agent/agents.py:59-64 | after the update there is at most one FileSearchTool; there is one iff `vs_id` is non-empty, and then it is last, bound to `[vs_id]` with 6 results |
| Agents.OtherToolsKept | src/seo_agent/agents.py:59-64 | the non-file-search tools after the update are those before, in the same order |
| Agents.LastUpdateWins | src/seo_agent/agents.py:53-64 | updating with A then B equals updating with B alone, and updating twice with one id equals updating once |

## Left out

- HTTP and HTML. The model leaves out `_fetch`, aiohttp, its 30-second timeout and `raise_for_status`. It also leaves out readability's `Document` and BeautifulSoup's `get_text` and `find_all`. A page is given as its extracted text and its hrefs. A parser that raises on a fetched page is not modelled.
- `urljoin` and `urlparse(...).netloc` are uninterpreted functions. The model proves nothing about URL syntax.
- Crawl: the `aiohttp.ClientSession` context is left out.
- Crawler.Crawl: the contract does not fix which kept pages of the last level reached are stored when the limit cuts that level short. Within one level the source fetches in the document order of the hrefs, and that order is only in the method body. `Crawl` returns a map, so the insertion order of the dict (the fetch order restricted to kept pages) is given only by `fetched`.
- Density: `round(..., 2)` is left out, because the model computes the exact rational ratio.
- `readability_score` is left out. It wraps textstat's floating-point Flesch score.
- Density: tokenisation is left out (`re.findall(r"\w+", ...)` over the lower-cased text). `Density` takes the token sequences.
- Build: the temporary file is not modelled (written, opened and removed). The uploaded content is the page text.
- Build: `slugify` is a parameter.
- Build: `purpose="assistants"` is not recorded.
- VectorStore.UploadFailed: the exception `files.create` raises carries no URL. The URL in `UploadFailed(url)` is only the model's label for the page at which the loop stopped. The model does not describe the exception itself, only that it propagates.
- Mcp: JSON numbers are exact rationals, so NaN and infinities are not represented.
- Mcp.Lookup: a `JObj` with a repeated key is not ruled out. `json.loads` keeps the last value of a repeated key, and `Lookup` takes the first. The lemmas are faithful only for objects with distinct keys, which every Python dict has.
- Mcp: the SDK constructors `MCPServerStdio` and `MCPServerSse` do not validate their parameters here. `cache_tools_list=True` is constant and not stored.
- Mcp.InstantiateServers: the log line text is left out. The model returns the names of the logged entries instead.
- Mcp.ConnectMcp: `servers = await _instantiate()` (`mcp.py:42`) is not part of this method. The method takes the servers that `InstantiateServers` produced, each paired with the answers its `connect()` and `cleanup()` give. What the body of the `async with` block does is reduced to whether it raises.
- Logging calls, the info and warning messages, are left out.
- Concurrency is left out. Every `await` in these loops runs one after another, so the model is sequential.
- Agents: the `Agent`, `handoff` and `OpenAIResponsesModel` objects are reduced to the agent's name, its tools and its servers. The model leaves out the `function_tool` wrapper, the model client and the instructions.
- Agents: list aliasing is not modelled. In the source the sub-agents share the `BASE_TOOLS` and `MCP_SERVERS` list objects, and FileSearchTool shares `VECTOR_STORE_IDS`. The model uses value sequences, which end in the same state. The exception is `update_mcp_servers` called with `MCP_SERVERS` itself, which the model does not cover.
- The entry points and configuration are not part of this model: `cli.py`, `config.py` (environment and JSON loading), `agent.py`, `debug.py` and `run.py`.

=== FILE: agents.dfy ===
/**
 * The agent registry of agents.py: the shared tool list, the vector-store
 * ids the file-search tool is bound to, the MCP servers, and the five
 * agents (four sub-agents and the Coordinator) that hold their own tool
 * and server lists.
 */
module Agents {
  import Mcp

  /** The `max_num_results` every FileSearchTool is created with. */
  const MaxNumResults: nat := 6

  /** The tools an agent can hold: WebSearchTool, the kw_density function
      tool, and FileSearchTool bound to vector stores. */
  datatype Tool =
    | WebSearch
    | KwDensity
    | FileSearch(vectorStoreIds: seq<string>, maxNumResults: nat)

  /** The list comprehension that drops every FileSearchTool. */
  function WithoutFileSearch(tools: seq<Tool>): (r: seq<Tool>)
    ensures |r| <= |tools|
    ensures forall t | t in r :: !t.FileSearch?
  {
    if tools == [] then []
    else (if tools[0].FileSearch? then [] else [tools[0]]) + WithoutFileSearch(tools[1..])
  }

  /** The number of FileSearchTools in `tools`. */
  function FileSearchCount(tools: seq<Tool>): nat {
    if tools == [] then 0
    else (if tools[0].FileSearch? then 1 else 0) + FileSearchCount(tools[1..])
  }

  /** The ids update_vector_store_ids leaves in VECTOR_STORE_IDS. */
  function StoreIdsAfter(vsId: string): (r: seq<string>)
    ensures |r| <= 1 && (r == [] <==> vsId == "")
    ensures forall id | id in r :: id == vsId
  {
    if vsId != "" then [vsId] else []
  }

  /** BASE_TOOLS after update_vector_store_ids(vsId), given BASE_TOOLS
      before. */
  function ToolsAfter(tools: seq<Tool>, vsId: string): (r: seq<Tool>)
    ensures |r| <= |tools| + 1
    ensures forall t | t in r && t.FileSearch? :: t == FileSearch([vsId], MaxNumResults)
  {
    WithoutFileSearch(tools)
      + if vsId != "" then [FileSearch(StoreIdsAfter(vsId), MaxNumResults)] else []
  }

  /** An agent: its own tool and MCP-server lists. */
  class Agent {
    const name: string
    var tools: seq<Tool>
    var mcpServers: seq<Mcp.Server>

    constructor (name: string, tools: seq<Tool>, mcpServers: seq<Mcp.Server>)
      ensures this.name == name && this.tools == tools && this.mcpServers == mcpServers
    {
      this.name := name;
      this.tools := tools;
      this.mcpServers := mcpServers;
    }
  }

  /** The module-level state of agents.py. */
  class Registry {
    var baseTools: seq<Tool>
    var vectorStoreIds: seq<string>
    var mcpServers: seq<Mcp.Server>
    const research: Agent
    const outline: Agent
    const draft: Agent
    const audit: Agent
    const coordinator: Agent

    /** The agents in the order the update loops visit them. */
    function All(): seq<Agent> {
      [research, outline, draft, audit, coordinator]
    }

    /** The state at import time: BASE_TOOLS holds the web-search and
        keyword-density tools, the four sub-agents start with those tools,
        the Coordinator with none, and no store ids or servers are set. */
    constructor ()
      ensures baseTools == [WebSearch, KwDensity] && vectorStoreIds == [] && mcpServers == []
      ensures research.name == "researcher" && outline.name == "outliner" && draft.name == "drafter"
      ensures audit.name == "auditor" && coordinator.name == "coordinator"
      ensures research.tools == baseTools && outline.tools == baseTools
      ensures draft.tools == baseTools && audit.tools == baseTools
      ensures coordinator.tools == []
      ensures forall a | a in All() :: a.mcpServers == [] && fresh(a)
    {
      baseTools := [WebSearch, KwDensity];
      vectorStoreIds := [];
      mcpServers := [];
      research := new Agent("researcher", [WebSearch, KwDensity], []);
      outline := new Agent("outliner", [WebSearch, KwDensity], []);
      draft := new Agent("drafter", [WebSearch, KwDensity], []);
      audit := new Agent("auditor", [WebSearch, KwDensity], []);
      coordinator := new Agent("coordinator", [], []);
    }

    /** update_vector_store_ids: binds the file-search tool to `vsId`
        (removing it for an empty id) and gives every agent, the
        Coordinator included, the new BASE_TOOLS. */
    method UpdateVectorStoreIds(vsId: string)
      modifies this, All()
      ensures vectorStoreIds == StoreIdsAfter(vsId)
      ensures baseTools == ToolsAfter(old(baseTools), vsId)
      ensures forall a | a in All() :: a.tools == baseTools
      ensures mcpServers == old(mcpServers)
      ensures forall a | a in All() :: a.mcpServers == old(a.mcpServers)
    {
      vectorStoreIds := [];
      if vsId != "" {
        vectorStoreIds := vectorStoreIds + [vsId];
      }
      baseTools := WithoutFileSearch(baseTools);
      if vectorStoreIds != [] {
        baseTools := baseTools + [FileSearch(vectorStoreIds, MaxNumResults)];
      }
      var agents := All();
      for i := 0 to |agents|
        invariant vectorStoreIds == StoreIdsAfter(vsId) && mcpServers == old(mcpServers)
        invariant baseTools == ToolsAfter(old(baseTools), vsId)
        invariant forall j | 0 <= j < i :: agents[j].tools == baseTools
        invariant forall a | a in agents :: a.mcpServers == old(a.mcpServers)
      {
        // tools.clear() followed by tools.extend(BASE_TOOLS)
        agents[i].tools := baseTools;
      }
    }

    /** update_mcp_servers: MCP_SERVERS and every agent's server list
        become `servers`, in order, dropping the previous servers. */
    method UpdateMcpServers(servers: seq<Mcp.Server>)
      modifies this, All()
      ensures mcpServers == servers
      ensures forall a | a in All() :: a.mcpServers == servers
      ensures baseTools == old(baseTools) && vectorStoreIds == old(vectorStoreIds)
      ensures forall a | a in All() :: a.tools == old(a.tools)
    {
      mcpServers := servers;
      var agents := All();
      for i := 0 to |agents|
        invariant mcpServers == servers
        invariant baseTools == old(baseTools) && vectorStoreIds == old(vectorStoreIds)
        invariant forall j | 0 <= j < i :: agents[j].mcpServers == servers
        invariant forall a | a in agents :: a.tools == old(a.tools)
      {
        // mcp_servers.clear() followed by mcp_servers.extend(servers)
        agents[i].mcpServers := servers;
      }
    }
  }

  /** The filter distributes over concatenation: the tools it keeps stay
      in their relative order. */
  lemma {:induction false} WithoutFileSearchAppend(a: seq<Tool>, b: seq<Tool>)
    ensures WithoutFileSearch(a + b) == WithoutFileSearch(a) + WithoutFileSearch(b)
  {
    if a != [] {
      assert (a + b)[1..] == a[1..] + b;
      WithoutFileSearchAppend(a[1..], b);
    } else {
      assert a + b == b;
    }
  }

  /** A tool survives the filter exactly when it is in the list and is not
      a FileSearchTool. */
  lemma {:induction false} WithoutFileSearchKeeps(tools: seq<Tool>)
    ensures forall t :: t in WithoutFileSearch(tools) <==> t in tools && !t.FileSearch?
  {
    if tools != [] {
      WithoutFileSearchKeeps(tools[1..]);
      assert tools == [tools[0]] + tools[1..];
    }
  }

  /** A list without FileSearchTools passes the filter unchanged. */
  lemma {:induction false} WithoutFileSearchIdentity(tools: seq<Tool>)
    requires forall t | t in tools :: !t.FileSearch?
    ensures WithoutFileSearch(tools) == tools
  {
    if tools != [] {
      WithoutFileSearchIdentity(tools[1..]);
      assert tools == [tools[0]] + tools[1..];
    }
  }

  /** FileSearchCount adds up over concatenation. */
  lemma {:induction false} FileSearchCountAppend(a: seq<Tool>, b: seq<Tool>)
    ensures FileSearchCount(a + b) == FileSearchCount(a) + FileSearchCount(b)
  {
    if a != [] {
      assert (a + b)[1..] == a[1..] + b;
      FileSearchCountAppend(a[1..], b);
    } else {
      assert a + b == b;
    }
  }

  /** A list whose tools are not FileSearchTools counts none. */
  lemma {:induction false} FileSearchCountZero(tools: seq<Tool>)
    requires forall t | t in tools :: !t.FileSearch?
    ensures FileSearchCount(tools) == 0
  {
    if tools != [] {
      FileSearchCountZero(tools[1..]);
    }
  }

  /** After the update BASE_TOOLS holds at most one FileSearchTool; it
      holds one exactly when `vsId` is non-empty, and then it is the last
      tool, bound to `[vsId]` with six results. */
  lemma FileSearchReplaced(tools: seq<Tool>, vsId: string)
    ensures var r := ToolsAfter(tools, vsId);
      && FileSearchCount(r) <= 1
      && (FileSearchCount(r) == 1 <==> vsId != "")
      && (vsId != "" ==> r[|r| - 1] == FileSearch([vsId], 6))
  {
    var kept := WithoutFileSearch(tools);
    FileSearchCountZero(kept);
    FileSearchCountAppend(kept, if vsId != "" then [FileSearch([vsId], MaxNumResults)] else []);
  }

  /** The tools other than FileSearchTool are those of BASE_TOOLS before
      the update, in the same order. */
  lemma OtherToolsKept(tools: seq<Tool>, vsId: string)
    ensures WithoutFileSearch(ToolsAfter(tools, vsId)) == WithoutFileSearch(tools)
  {
    var kept := WithoutFileSearch(tools);
    var added := if vsId != "" then [FileSearch([vsId], MaxNumResults)] else [];
    WithoutFileSearchAppend(kept, added);
    WithoutFileSearchIdentity(kept);
    assert WithoutFileSearch(added) == [];
    assert kept + [] == kept;
  }

  /** Updating with `a` and then with `b` gives what updating with `b`
      alone gives: one FileSearchTool, bound to `b`. In particular,
      updating twice with the same id is the same as updating once. */
  lemma LastUpdateWins(tools: seq<Tool>, a: string, b: string)
    ensures ToolsAfter(ToolsAfter(tools, a), b) == ToolsAfter(tools, b)
    ensures ToolsAfter(ToolsAfter(tools, a), a) == ToolsAfter(tools, a)
  {
    OtherToolsKept(tools, a);
  }
}

=== FILE: crawler.dfy ===
/**
 * The site crawler: a bounded breadth-first walk from a root URL that
 * collects the readable text of every same-host page it can fetch.
 *
 * Fetching and HTML parsing are outside the model: a `World` says what each
 * URL yields when fetched (its readable text and its anchors' hrefs, or
 * nothing when the fetch raises), and carries the URL library's `urljoin`
 * and `netloc` as uninterpreted functions.
 */
module Crawler {
  import opened Wrappers

  type Url = string

  /** A successfully fetched page once parsed: its readable main text and
      the href of every anchor that has one, in document order. */
  datatype Page = Page(text: string, hrefs: seq<string>)

  /** What the crawler can observe. A URL outside `pages`, or mapped to
      None, is a fetch that raises. `join` resolves an href against the URL
      of the page it appears on; `netloc` gives a URL's network location. */
  datatype World = World(
    pages: map<Url, Option<Page>>,
    join: (Url, string) -> Url,
    netloc: Url -> string)

  /** Stored texts are cut to this many characters. */
  const MaxTextLength: nat := 20000

  /** The outcome of fetching `url`: a page only for a URL the world maps
      to one; any other URL raises. */
  function Fetch(w: World, url: Url): (r: Option<Page>)
    ensures r.Some? ==> url in w.pages && w.pages[url] == r
  {
    if url in w.pages then w.pages[url] else None
  }

  /** Python's `str.isspace` for a single character. */
  predicate IsSpace(c: char): (b: bool)
    ensures c == ' ' || '\t' <= c <= '\r' ==> b
    ensures b ==> !('0' <= c <= '9' || 'A' <= c <= 'Z' || 'a' <= c <= 'z' || c == '_')
  {
    || c in {' ', '\t', '\n', '\U{B}', '\U{C}', '\r', '\U{1C}', '\U{1D}', '\U{1E}', '\U{1F}',
             '\U{85}', '\U{A0}', '\U{1680}', '\U{2028}', '\U{2029}', '\U{202F}', '\U{205F}', '\U{3000}'}
    || '\U{2000}' <= c <= '\U{200A}'
  }

  /** `s.lstrip()`: `s` without its leading whitespace. */
  function StripLeading(s: string): (r: string)
    ensures r == [] || !IsSpace(r[0])
  {
    if s != [] && IsSpace(s[0]) then StripLeading(s[1..]) else s
  }

  /** `s.strip()` is empty: every character of `s` is whitespace, so that
      stripping the leading whitespace leaves nothing. */
  predicate IsBlank(s: string): (b: bool)
    ensures b <==> StripLeading(s) == []
  {
    BlankIffStripped(s);
    forall i | 0 <= i < |s| :: IsSpace(s[i])
  }

  /** What `lstrip` removes is a run of whitespace at the front: the
      result is the rest of `s`. */
  lemma {:induction false} StripLeadingSuffix(s: string)
    ensures var r := StripLeading(s);
      && |r| <= |s| && r == s[|s| - |r|..]
      && forall i | 0 <= i < |s| - |r| :: IsSpace(s[i])
  {
    if s != [] && IsSpace(s[0]) {
      StripLeadingSuffix(s[1..]);
      var r := StripLeading(s);
      assert s[1..][|s| - 1 - |r|..] == s[|s| - |r|..];
      assert forall i | 1 <= i < |s| - |r| :: s[i] == s[1..][i - 1];
    }
  }

  lemma {:induction false} BlankIffStripped(s: string)
    ensures (forall i | 0 <= i < |s| :: IsSpace(s[i])) <==> StripLeading(s) == []
  {
    if s != [] {
      BlankIffStripped(s[1..]);
      assert forall i | 1 <= i < |s| :: s[i] == s[1..][i - 1];
    }
  }

  /** The slice `s[:20_000]`: the longest prefix of `s` within the bound. */
  function Truncate(s: string): (r: string)
    ensures r <= s
    ensures |r| == if |s| <= MaxTextLength then |s| else MaxTextLength
  {
    if |s| <= MaxTextLength then s else s[..MaxTextLength]
  }

  /** The crawler stores the page at `url`: it was fetched and its text is not blank. */
  predicate Kept(w: World, url: Url) {
    Fetch(w, url).Some? && !IsBlank(Fetch(w, url).value.text)
  }

  /** The text stored for a kept page. */
  function Stored(w: World, url: Url): string
    requires Kept(w, url)
  {
    Truncate(Fetch(w, url).value.text)
  }

  /** `href.startswith("#")`. */
  predicate StartsWithHash(href: string): (b: bool)
    ensures b <==> "#" <= href
  {
    |href| > 0 && href[0] == '#'
  }

  /** The crawler enqueues `href`, found on the page at `url`: it is not a
      fragment link and it resolves to a URL on the root's host. */
  predicate Followed(w: World, root: Url, url: Url, href: string): (b: bool)
    ensures "#" <= href ==> !b
    ensures b ==> w.netloc(w.join(url, href)) == w.netloc(root)
  {
    !StartsWithHash(href) && w.netloc(w.join(url, href)) == w.netloc(root)
  }

  /** The URLs appended to the queue while scanning `hrefs` on the page at
      `url`, in the order they are appended. */
  function Targets(w: World, root: Url, url: Url, hrefs: seq<string>): (r: seq<Url>)
    ensures |r| <= |hrefs|
    ensures forall t | t in r :: w.netloc(t) == w.netloc(root)
  {
    if hrefs == [] then []
    else
      var href := hrefs[|hrefs| - 1];
      Targets(w, root, url, hrefs[..|hrefs| - 1])
        + (if Followed(w, root, url, href) then [w.join(url, href)] else [])
  }

  /** Scanning one more href appends at most its own target. */
  lemma TargetsSnoc(w: World, root: Url, url: Url, hrefs: seq<string>, i: nat)
    requires i < |hrefs|
    ensures Targets(w, root, url, hrefs[..i + 1]) == Targets(w, root, url, hrefs[..i])
      + (if Followed(w, root, url, hrefs[i]) then [w.join(url, hrefs[i])] else [])
  {
    assert hrefs[..i + 1][..i] == hrefs[..i];
  }

  /** A URL is enqueued from a page exactly when some non-fragment href on
      it resolves to that URL on the root's host. */
  lemma {:induction false} TargetsExactly(w: World, root: Url, url: Url, hrefs: seq<string>, t: Url)
    ensures t in Targets(w, root, url, hrefs) <==>
      exists i | 0 <= i < |hrefs| :: Followed(w, root, url, hrefs[i]) && t == w.join(url, hrefs[i])
  {
    if hrefs != [] {
      var n := |hrefs| - 1;
      TargetsExactly(w, root, url, hrefs[..n], t);
      if t in Targets(w, root, url, hrefs) {
        if t !in Targets(w, root, url, hrefs[..n]) {
          assert Followed(w, root, url, hrefs[n]) && t == w.join(url, hrefs[n]);
        }
      } else {
        forall i | 0 <= i < |hrefs| && Followed(w, root, url, hrefs[i])
          ensures t != w.join(url, hrefs[i])
        {
          if i < n {
            assert hrefs[..n][i] == hrefs[i];
          }
        }
      }
    }
  }

  /** The links followed from `url`: none when its fetch fails. */
  function Links(w: World, root: Url, url: Url): (r: seq<Url>)
    ensures Fetch(w, url).None? ==> r == []
    ensures Fetch(w, url).Some? ==> |r| <= |Fetch(w, url).value.hrefs|
    ensures forall t | t in r :: w.netloc(t) == w.netloc(root)
  {
    match Fetch(w, url)
    case None => []
    case Some(page) => Targets(w, root, url, page.hrefs)
  }

  /** One breadth-first step: `s` and every link followed from a member of `s`. */
  ghost function Step(w: World, root: Url, s: set<Url>): set<Url> {
    s + set u, t | u in s && t in Links(w, root, u) :: t
  }

  /** The URLs reachable from `root` along at most `k` followed links. */
  ghost function Reach(w: World, root: Url, k: nat): set<Url> {
    if k == 0 then {root} else Step(w, root, Reach(w, root, k - 1))
  }

  ghost predicate Reachable(w: World, root: Url, u: Url) {
    exists k: nat :: u in Reach(w, root, k)
  }

  /** Every link followed from `s` has one more step to go. */
  ghost predicate Closed(w: World, root: Url, s: set<Url>) {
    forall u | u in s :: forall t | t in Links(w, root, u) :: t in s
  }

  lemma StepIncludesLinks(w: World, root: Url, s: set<Url>, u: Url, t: Url)
    requires u in s && t in Links(w, root, u)
    ensures t in Step(w, root, s)
  {
  }

  /** Every reachable URL is on the root's host. */
  lemma {:induction false} ReachSameHost(w: World, root: Url, k: nat)
    ensures forall u | u in Reach(w, root, k) :: w.netloc(u) == w.netloc(root)
  {
    if k > 0 {
      ReachSameHost(w, root, k - 1);
      forall u | u in Reach(w, root, k) ensures w.netloc(u) == w.netloc(root) {
        if u !in Reach(w, root, k - 1) {
          var v, t :| v in Reach(w, root, k - 1) && t in Links(w, root, v) && u == t;
        }
      }
    }
  }

  /** When the root cannot be fetched, nothing but the root is reachable. */
  lemma {:induction false} FailedRootReach(w: World, root: Url, k: nat)
    requires Fetch(w, root).None?
    ensures Reach(w, root, k) == {root}
  {
    if k > 0 {
      FailedRootReach(w, root, k - 1);
      assert Links(w, root, root) == [];
    }
  }

  /** A closed set holding the root holds everything reachable. */
  lemma {:induction false} ClosedContainsReach(w: World, root: Url, s: set<Url>, k: nat)
    requires root in s && Closed(w, root, s)
    ensures Reach(w, root, k) <= s
  {
    if k > 0 {
      ClosedContainsReach(w, root, s, k - 1);
    }
  }

  /** Every link followed from a visited page is visited or still queued. */
  ghost predicate QueueCovers(w: World, root: Url, seen: set<Url>, q: seq<Url>) {
    forall u | u in seen :: forall t | t in Links(w, root, u) :: t in seen || t in q
  }

  /** Everything visited or queued is reachable from the root. */
  ghost predicate AllReachable(w: World, root: Url, seen: set<Url>, q: seq<Url>) {
    (forall u | u in seen :: Reachable(w, root, u)) && forall u | u in q :: Reachable(w, root, u)
  }

  /** `fetched` lists the visited URLs, each once. */
  ghost predicate LogMatches(seen: set<Url>, fetched: seq<Url>) {
    (forall u :: u in seen <==> u in fetched) && Distinct(fetched)
  }

  /** `texts` holds exactly the kept pages among the visited ones, with
      their stored text, and no more entries than the limit allows. */
  ghost predicate TextsMatch(w: World, limit: int, seen: set<Url>, texts: map<Url, string>) {
    && (forall u :: u in texts <==> u in seen && Kept(w, u))
    && (forall u | u in texts :: texts[u] == Stored(w, u))
    && |texts| <= (if limit <= 0 then 0 else limit)
  }

  /** The walk starts at the root, and the limit can only be reached by
      storing a page: the last URL fetched is then a kept page. */
  ghost predicate RootFirst(w: World, root: Url, limit: int, q: seq<Url>,
                            texts: map<Url, string>, fetched: seq<Url>)
  {
    && (fetched == [] ==> q == [root])
    && (fetched != [] ==> fetched[0] == root)
    && (|texts| >= limit > 0 ==> fetched != [] && Kept(w, fetched[|fetched| - 1]))
  }

  /** The state of a crawl between two iterations of its loop: `seen` is
      the set of URLs fetched so far (`fetched` in fetch order, each once),
      `texts` holds exactly the kept pages among them and respects the
      limit, everything visited or queued is reachable, the queue covers
      every link not yet visited, and the walk started at the root. */
  ghost predicate CrawlInv(w: World, root: Url, limit: int, seen: set<Url>, q: seq<Url>,
                          texts: map<Url, string>, fetched: seq<Url>)
  {
    // bound to one name, so that the verifier checks the invariant as a
    // whole instead of conjunct by conjunct
    var holds :=
      && LogMatches(seen, fetched)
      && TextsMatch(w, limit, seen, texts)
      && AllReachable(w, root, seen, q)
      && (root in seen || root in q)
      && QueueCovers(w, root, seen, q)
      && RootFirst(w, root, limit, q, texts, fetched);
    holds
  }

  lemma CrawlInvInit(w: World, root: Url, limit: int)
    ensures CrawlInv(w, root, limit, {}, [root], map[], [])
  {
    assert root in Reach(w, root, 0);
  }

  lemma LogVisit(seen: set<Url>, fetched: seq<Url>, url: Url)
    requires LogMatches(seen, fetched) && url !in seen
    ensures LogMatches(seen + {url}, fetched + [url])
  {
  }

  lemma TextsVisit(w: World, limit: int, seen: set<Url>, texts: map<Url, string>, url: Url, texts': map<Url, string>)
    requires TextsMatch(w, limit, seen, texts) && url !in seen && |texts| < limit
    requires texts' == if Kept(w, url) then texts[url := Stored(w, url)] else texts
    ensures TextsMatch(w, limit, seen + {url}, texts')
  {
    assert url !in texts;
  }


  /** Dequeuing a URL that was already visited keeps the queue covering. */
  lemma SkipKeepsCover(w: World, root: Url, seen: set<Url>, url: Url, q: seq<Url>)
    requires url in seen && QueueCovers(w, root, seen, [url] + q)
    ensures QueueCovers(w, root, seen, q)
  {
  }

  /** Visiting a dequeued URL and appending its links keeps the queue covering. */
  lemma VisitKeepsCover(w: World, root: Url, seen: set<Url>, url: Url, q: seq<Url>)
    requires QueueCovers(w, root, seen, [url] + q)
    ensures QueueCovers(w, root, seen + {url}, q + Links(w, root, url))
  {
  }

  /** Dequeuing a URL that was already visited. */
  lemma SkipPreserves(w: World, root: Url, limit: int, seen: set<Url>, q: seq<Url>,
                      texts: map<Url, string>, fetched: seq<Url>)
    requires CrawlInv(w, root, limit, seen, q, texts, fetched)
    requires q != [] && q[0] in seen
    ensures CrawlInv(w, root, limit, seen, q[1..], texts, fetched)
  {
    assert q == [q[0]] + q[1..];
    VisitReachable(w, root, seen, q[0], q[1..]);
    SkipKeepsCover(w, root, seen, q[0], q[1..]);
    assert RootFirst(w, root, limit, q[1..], texts, fetched);
  }

  /** Dequeuing the URL at the head of `q`, not yet visited, fetching it,
      storing its text when kept and appending the links it follows: the
      new queue is `q'`, the new texts `texts'`. */
  lemma VisitPreserves(w: World, root: Url, limit: int, seen: set<Url>, q: seq<Url>,
                       texts: map<Url, string>, fetched: seq<Url>,
                       texts': map<Url, string>, q': seq<Url>)
    requires CrawlInv(w, root, limit, seen, q, texts, fetched)
    requires q != [] && q[0] !in seen && |texts| < limit
    requires texts' == if Kept(w, q[0]) then texts[q[0] := Stored(w, q[0])] else texts
    requires q' == q[1..] + Links(w, root, q[0])
    ensures CrawlInv(w, root, limit, seen + {q[0]}, q', texts', fetched + [q[0]])
    ensures q[0] in w.pages ==> w.pages.Keys - (seen + {q[0]}) < w.pages.Keys - seen
    ensures q[0] !in w.pages ==> w.pages.Keys - (seen + {q[0]}) == w.pages.Keys - seen && |q'| < |q|
  {
    VisitKeepsLog(w, root, limit, seen, q, texts, fetched, texts', q');
    VisitKeepsQueue(w, root, seen, q, q');
    if q[0] !in w.pages {
      assert Links(w, root, q[0]) == [];
    }
  }

  /** The record half of a visit: the log, the stored texts and the
      root-first facts. */
  lemma VisitKeepsLog(w: World, root: Url, limit: int, seen: set<Url>, q: seq<Url>,
                      texts: map<Url, string>, fetched: seq<Url>,
                      texts': map<Url, string>, q': seq<Url>)
    requires LogMatches(seen, fetched) && TextsMatch(w, limit, seen, texts)
    requires RootFirst(w, root, limit, q, texts, fetched)
    requires q != [] && q[0] !in seen && |texts| < limit
    requires texts' == if Kept(w, q[0]) then texts[q[0] := Stored(w, q[0])] else texts
    requires q' == q[1..] + Links(w, root, q[0])
    ensures LogMatches(seen + {q[0]}, fetched + [q[0]])
    ensures TextsMatch(w, limit, seen + {q[0]}, texts')
    ensures RootFirst(w, root, limit, q', texts', fetched + [q[0]])
  {
    LogVisit(seen, fetched, q[0]);
    TextsVisit(w, limit, seen, texts, q[0], texts');
    RootFirstVisit(w, root, limit, q, texts, fetched, texts', q');
  }

  /** The queue half of a visit: reachability, the root's place and the
      covering of links. */
  lemma VisitKeepsQueue(w: World, root: Url, seen: set<Url>, q: seq<Url>, q': seq<Url>)
    requires AllReachable(w, root, seen, q) && (root in seen || root in q)
    requires QueueCovers(w, root, seen, q)
    requires q != [] && q' == q[1..] + Links(w, root, q[0])
    ensures AllReachable(w, root, seen + {q[0]}, q')
    ensures root in seen + {q[0]} || root in q'
    ensures QueueCovers(w, root, seen + {q[0]}, q')
  {
    assert q == [q[0]] + q[1..];
    VisitReachable(w, root, seen, q[0], q[1..]);
    VisitKeepsCover(w, root, seen, q[0], q[1..]);
  }

  /** After a visit the walk still starts at the root, and the limit is
      reached only by storing the page just visited. */
  lemma RootFirstVisit(w: World, root: Url, limit: int, q: seq<Url>, texts: map<Url, string>, fetched: seq<Url>,
                       texts': map<Url, string>, q': seq<Url>)
    requires RootFirst(w, root, limit, q, texts, fetched) && q != [] && |texts| < limit
    requires texts' == if Kept(w, q[0]) then texts[q[0] := Stored(w, q[0])] else texts
    requires q' == q[1..] + Links(w, root, q[0])
    ensures RootFirst(w, root, limit, q', texts', fetched + [q[0]])
    ensures root in fetched + [q[0]] || root in q' || root !in q
  {
    assert q == [q[0]] + q[1..];
  }

  /** One iteration of the loop: the head of `q` is dequeued and skipped
      when already visited, visited otherwise. The invariant holds again,
      one entry of the current level is consumed, and the termination
      measure decreases. */
  lemma IterationPreserves(w: World, root: Url, limit: int, d: nat, m: nat, m': nat,
                           seen: set<Url>, q: seq<Url>, texts: map<Url, string>, fetched: seq<Url>,
                           seen': set<Url>, q': seq<Url>, texts': map<Url, string>, fetched': seq<Url>)
    requires CrawlInv(w, root, limit, seen, q, texts, fetched) && Levels(w, root, d, m, seen, q, fetched)
    requires q != [] && |texts| < limit && m' + 1 == m
    requires q[0] in seen ==> seen' == seen && q' == q[1..] && texts' == texts && fetched' == fetched
    requires q[0] !in seen ==>
      && seen' == seen + {q[0]} && fetched' == fetched + [q[0]]
      && texts' == (if Kept(w, q[0]) then texts[q[0] := Stored(w, q[0])] else texts)
      && q' == q[1..] + Links(w, root, q[0])
    ensures CrawlInv(w, root, limit, seen', q', texts', fetched')
    ensures Levels(w, root, d, m', seen', q', fetched')
    ensures w.pages.Keys - seen' < w.pages.Keys - seen
      || (w.pages.Keys - seen' == w.pages.Keys - seen && |q'| < |q|)
  {
    if q[0] in seen {
      SkipPreserves(w, root, limit, seen, q, texts, fetched);
      LevelsSkip(w, root, d, m, m', seen, q, fetched);
    } else {
      VisitPreserves(w, root, limit, seen, q, texts, fetched, texts', q');
      LevelsVisit(w, root, d, m, m', seen, q, fetched, q');
    }
  }

  /** A link followed from a reachable page is reachable. */
  lemma LinkReachable(w: World, root: Url, u: Url, t: Url)
    requires Reachable(w, root, u) && t in Links(w, root, u)
    ensures Reachable(w, root, t)
  {
    var k: nat :| u in Reach(w, root, k);
    StepIncludesLinks(w, root, Reach(w, root, k), u, t);
    assert t in Reach(w, root, k + 1);
  }

  /** Dequeuing a reachable URL and appending its links keeps everything reachable. */
  lemma VisitReachable(w: World, root: Url, seen: set<Url>, url: Url, q: seq<Url>)
    requires AllReachable(w, root, seen, [url] + q)
    ensures AllReachable(w, root, seen, q)
    ensures AllReachable(w, root, seen + {url}, q + Links(w, root, url))
  {
    assert Reachable(w, root, url);
    forall t | t in Links(w, root, url) ensures Reachable(w, root, t) {
      LinkReachable(w, root, url, t);
    }
  }

  /** Every stored page is reachable, on the root's host, and none is
      stored when the root cannot be fetched. */
  lemma StoredReachable(w: World, root: Url, seen: set<Url>, texts: map<Url, string>)
    requires forall u | u in seen :: Reachable(w, root, u)
    requires forall u | u in texts :: u in seen && Kept(w, u)
    ensures forall u | u in texts :: w.netloc(u) == w.netloc(root)
    ensures Fetch(w, root).None? ==> texts == map[]
  {
    forall u | u in texts ensures w.netloc(u) == w.netloc(root) {
      var k: nat :| u in Reach(w, root, k);
      ReachSameHost(w, root, k);
    }
    if Fetch(w, root).None? {
      forall u | u in texts ensures false {
        var k: nat :| u in Reach(w, root, k);
        FailedRootReach(w, root, k);
      }
    }
  }

  /** Once the queue is empty, every reachable page that is kept is stored. */
  lemma StoredComplete(w: World, root: Url, seen: set<Url>, texts: map<Url, string>)
    requires root in seen && QueueCovers(w, root, seen, [])
    requires forall u | u in seen && Kept(w, u) :: u in texts
    ensures forall k: nat, u | u in Reach(w, root, k) && Kept(w, u) :: u in texts
  {
    forall k: nat ensures Reach(w, root, k) <= seen {
      ClosedContainsReach(w, root, seen, k);
    }
  }

  /** Reach grows with the number of links allowed. */
  lemma {:induction false} ReachMono(w: World, root: Url, j: nat, k: nat)
    requires j <= k
    ensures Reach(w, root, j) <= Reach(w, root, k)
  {
    if j < k {
      ReachMono(w, root, j, k - 1);
    }
  }

  /** For every k, the URLs fetched within k links of the root are fetched
      before every other URL. */
  ghost predicate BreadthFirst(w: World, root: Url, fetched: seq<Url>) {
    forall k: nat, i, j | 0 <= i < j < |fetched| && fetched[j] in Reach(w, root, k) ::
      fetched[i] in Reach(w, root, k)
  }

  /** The first `m` queue entries lie within `d` links of the root, the
      others within `d + 1`. */
  ghost predicate QueueLevels(w: World, root: Url, d: nat, m: nat, q: seq<Url>) {
    && m <= |q|
    && (forall u | u in q[..m] :: u in Reach(w, root, d))
    && (forall u | u in q[m..] :: u in Reach(w, root, d + 1))
  }

  /** Every URL within fewer than `d` links of the root is visited, and
      every URL within `d` links is visited or among the first `m` queue
      entries. */
  ghost predicate LevelsCovered(w: World, root: Url, d: nat, m: nat, seen: set<Url>, q: seq<Url>) {
    && m <= |q|
    && (d > 0 ==> Reach(w, root, d - 1) <= seen)
    && (forall u | u in Reach(w, root, d) :: u in seen || u in q[..m])
  }

  /** Nothing fetched lies beyond `d` links of the root. */
  ghost predicate FetchedWithin(w: World, root: Url, d: nat, fetched: seq<Url>) {
    forall u | u in fetched :: u in Reach(w, root, d)
  }

  /** The walk goes level by level: `d` is the level being fetched, and the
      first `m` queue entries are what is left of it. */
  ghost predicate Levels(w: World, root: Url, d: nat, m: nat, seen: set<Url>, q: seq<Url>, fetched: seq<Url>)
  {
    var holds :=
      && QueueLevels(w, root, d, m, q)
      && LevelsCovered(w, root, d, m, seen, q)
      && FetchedWithin(w, root, d, fetched)
      && BreadthFirst(w, root, fetched);
    holds
  }

  lemma LevelsInit(w: World, root: Url)
    ensures Levels(w, root, 0, 1, {}, [root], [])
  {
    assert Reach(w, root, 0) == {root};
    assert [root][..1] == [root];
  }

  /** Before each dequeue the head of the queue belongs to the current
      level: once level `d` is exhausted, the queue holds what is left of
      level `d + 1`. */
  lemma LevelsAdvance(w: World, root: Url, d: nat, m: nat, seen: set<Url>, q: seq<Url>, fetched: seq<Url>)
    returns (d': nat, m': nat)
    requires Levels(w, root, d, m, seen, q, fetched) && QueueCovers(w, root, seen, q) && q != []
    ensures Levels(w, root, d', m', seen, q, fetched) && m' > 0
  {
    if m > 0 {
      return d, m;
    }
    assert Reach(w, root, d) <= seen;
    assert q[..|q|] == q[0..] == q;
    assert q[|q|..] == [];
    forall u | u in Reach(w, root, d + 1) ensures u in seen || u in q {
      if u !in Reach(w, root, d) {
        var v, t :| v in Reach(w, root, d) && t in Links(w, root, v) && u == t;
      }
    }
    d', m' := d + 1, |q|;
  }

  /** Dequeuing a URL already visited. */
  lemma LevelsSkip(w: World, root: Url, d: nat, m: nat, m': nat, seen: set<Url>, q: seq<Url>, fetched: seq<Url>)
    requires Levels(w, root, d, m, seen, q, fetched) && m' + 1 == m && q[0] in seen
    ensures Levels(w, root, d, m', seen, q[1..], fetched)
  {
    assert q[..m] == [q[0]] + q[1..][..m'];
    assert q[1..][m'..] == q[m..];
  }

  /** A URL that is not yet visited lies no nearer to the root than
      anything fetched before it. */
  lemma NoNearerThanFetched(w: World, root: Url, d: nat, seen: set<Url>, fetched: seq<Url>, url: Url, k: nat)
    requires FetchedWithin(w, root, d, fetched)
    requires d > 0 ==> Reach(w, root, d - 1) <= seen
    requires url !in seen && url in Reach(w, root, k)
    ensures forall i | 0 <= i < |fetched| :: fetched[i] in Reach(w, root, k)
  {
    if k < d {
      ReachMono(w, root, k, d - 1);
      assert false;
    }
    ReachMono(w, root, d, k);
  }

  /** A URL first fetched at level `d`, after every URL below that level,
      keeps the fetch order breadth-first. */
  lemma BreadthFirstVisit(w: World, root: Url, d: nat, seen: set<Url>, fetched: seq<Url>, url: Url)
    requires BreadthFirst(w, root, fetched) && FetchedWithin(w, root, d, fetched)
    requires d > 0 ==> Reach(w, root, d - 1) <= seen
    requires url !in seen
    ensures BreadthFirst(w, root, fetched + [url])
  {
    var f := fetched + [url];
    forall k: nat, i, j | 0 <= i < j < |f| && f[j] in Reach(w, root, k)
      ensures f[i] in Reach(w, root, k)
    {
      assert f[i] == fetched[i];
      if j == |fetched| {
        NoNearerThanFetched(w, root, d, seen, fetched, url, k);
      } else {
        assert f[j] == fetched[j];
      }
    }
  }

  /** Visiting the URL at the head of the queue and appending its links. */
  lemma LevelsVisit(w: World, root: Url, d: nat, m: nat, m': nat, seen: set<Url>, q: seq<Url>, fetched: seq<Url>,
                     q': seq<Url>)
    requires Levels(w, root, d, m, seen, q, fetched)
    requires m' + 1 == m && q[0] !in seen
    requires q' == q[1..] + Links(w, root, q[0])
    ensures Levels(w, root, d, m', seen + {q[0]}, q', fetched + [q[0]])
  {
    LevelsVisitQueue(w, root, d, m, m', seen, q, q');
    assert q[0] in q[..m];
    BreadthFirstVisit(w, root, d, seen, fetched, q[0]);
  }

  /** The queue half of a visit: the head of the current level leaves the
      queue, and its links join the next level at the back. */
  lemma LevelsVisitQueue(w: World, root: Url, d: nat, m: nat, m': nat, seen: set<Url>, q: seq<Url>, q': seq<Url>)
    requires QueueLevels(w, root, d, m, q) && LevelsCovered(w, root, d, m, seen, q)
    requires m' + 1 == m && q' == q[1..] + Links(w, root, q[0])
    ensures QueueLevels(w, root, d, m', q') && LevelsCovered(w, root, d, m', seen + {q[0]}, q')
  {
    var url := q[0];
    assert q[..m] == [url] + q'[..m'];
    assert url in Reach(w, root, d);
    assert q'[m'..] == q[m..] + Links(w, root, url);
    forall t | t in Links(w, root, url) ensures t in Reach(w, root, d + 1) {
      StepIncludesLinks(w, root, Reach(w, root, d), url, t);
    }
  }

  /** When the walk stops, everything strictly nearer to the root than the
      last URL fetched has been fetched. */
  lemma LevelsDone(w: World, root: Url, d: nat, m: nat, seen: set<Url>, q: seq<Url>, fetched: seq<Url>)
    requires Levels(w, root, d, m, seen, q, fetched) && LogMatches(seen, fetched)
    ensures forall k: nat, u | fetched != [] && fetched[|fetched| - 1] !in Reach(w, root, k) && u in Reach(w, root, k) ::
      u in fetched
  {
    forall k: nat, u | fetched != [] && fetched[|fetched| - 1] !in Reach(w, root, k) && u in Reach(w, root, k)
      ensures u in fetched
    {
      if k < d {
        ReachMono(w, root, k, d - 1);
      } else {
        ReachMono(w, root, d, k);
      }
    }
  }

  /** What the crawl promises, from the loop's invariant and its exit condition. */
  lemma CrawlDone(w: World, root: Url, limit: int, d: nat, m: nat, seen: set<Url>, q: seq<Url>,
                  texts: map<Url, string>, fetched: seq<Url>)
    requires CrawlInv(w, root, limit, seen, q, texts, fetched)
    requires Levels(w, root, d, m, seen, q, fetched)
    requires q == [] || |texts| >= limit
    ensures limit <= 0 ==> texts == map[]
    ensures forall u | u in texts :: Kept(w, u) && texts[u] == Stored(w, u)
    ensures forall u | u in texts :: 0 < |texts[u]| <= MaxTextLength
    ensures forall u | u in texts :: w.netloc(u) == w.netloc(root)
    ensures forall u | u in texts :: Reachable(w, root, u)
    ensures |texts| < limit ==> forall k: nat, u | u in Reach(w, root, k) && Kept(w, u) :: u in texts
    ensures Fetch(w, root).None? ==> texts == map[]
    ensures forall u :: u in texts <==> u in fetched && Kept(w, u)
    ensures forall u | u in fetched :: Reachable(w, root, u)
    ensures BreadthFirst(w, root, fetched)
    ensures forall k: nat, u | fetched != [] && fetched[|fetched| - 1] !in Reach(w, root, k) && u in Reach(w, root, k) ::
      u in fetched && (Kept(w, u) ==> u in texts)
  {
    LevelsDone(w, root, d, m, seen, q, fetched);
    if limit <= 0 {
      assert |texts| == 0;
    }
    StoredReachable(w, root, seen, texts);
    if |texts| < limit {
      StoredComplete(w, root, seen, texts);
    }
  }

  /** The scan of one page's anchors: appends, in document order, every
      href that is followed, resolved against the page's URL. */
  method EnqueueLinks(w: World, root: Url, url: Url, hrefs: seq<string>, q: seq<Url>) returns (q': seq<Url>)
    ensures q' == q + Targets(w, root, url, hrefs)
  {
    q' := q;
    var i := 0;
    while i < |hrefs|
      invariant 0 <= i <= |hrefs|
      invariant q' == q + Targets(w, root, url, hrefs[..i])
    {
      var href := hrefs[i];
      if !StartsWithHash(href) {
        var tgt := w.join(url, href);
        if w.netloc(tgt) == w.netloc(root) {
          q' := q' + [tgt];
        }
      }
      TargetsSnoc(w, root, url, hrefs, i);
      i := i + 1;
    }
    assert hrefs[..i] == hrefs;
  }

  /** The body of the loop for a URL not yet visited: fetch it, store its
      text when the page is kept, and append the links it follows. A fetch
      that raises stores nothing and appends nothing. */
  method VisitPage(w: World, root: Url, url: Url, texts: map<Url, string>, q: seq<Url>)
    returns (texts': map<Url, string>, q': seq<Url>)
    ensures texts' == if Kept(w, url) then texts[url := Stored(w, url)] else texts
    ensures q' == q + Links(w, root, url)
  {
    var page := Fetch(w, url);
    if page.None? {
      return texts, q;
    }
    var txt := page.value.text;
    texts' := texts;
    if !IsBlank(txt) {
      texts' := texts[url := Truncate(txt)];
    }
    q' := EnqueueLinks(w, root, url, page.value.hrefs, q);
  }

  /**
   * crawl_site: breadth-first from `root` until `limit` pages are stored or
   * the queue runs out. Duplicates are discarded when dequeued. `fetched`
   * records the URLs fetched, in order.
   */
  method Crawl(w: World, root: Url, limit: int) returns (texts: map<Url, string>, ghost fetched: seq<Url>)
    ensures limit <= 0 ==> texts == map[]
    ensures |texts| <= if limit <= 0 then 0 else limit
    ensures forall u | u in texts :: Kept(w, u) && texts[u] == Stored(w, u)
    ensures forall u | u in texts :: 0 < |texts[u]| <= MaxTextLength
    ensures forall u | u in texts :: w.netloc(u) == w.netloc(root)
    ensures forall u | u in texts :: Reachable(w, root, u)
    ensures |texts| < limit ==> forall k: nat, u | u in Reach(w, root, k) && Kept(w, u) :: u in texts
    ensures Fetch(w, root).None? ==> texts == map[]
    ensures Distinct(fetched)
    ensures forall u :: u in texts <==> u in fetched && Kept(w, u)
    ensures forall u | u in fetched :: Reachable(w, root, u)
    ensures limit > 0 ==> |fetched| > 0 && fetched[0] == root
    ensures |texts| >= limit > 0 ==> Kept(w, fetched[|fetched| - 1])
    ensures BreadthFirst(w, root, fetched)
    ensures forall k: nat, u | fetched != [] && fetched[|fetched| - 1] !in Reach(w, root, k) && u in Reach(w, root, k) ::
      u in fetched && (Kept(w, u) ==> u in texts)
  {
    var seen: set<Url> := {};
    texts := map[];
    var q: seq<Url> := [root];
    fetched := [];
    ghost var d: nat, m: nat := 0, 1;
    CrawlInvInit(w, root, limit);
    LevelsInit(w, root);
    while q != [] && |texts| < limit
      invariant CrawlInv(w, root, limit, seen, q, texts, fetched)
      invariant Levels(w, root, d, m, seen, q, fetched)
      decreases w.pages.Keys - seen, |q|
    {
      d, m := LevelsAdvance(w, root, d, m, seen, q, fetched);
      ghost var m0, seen0, q0, texts0, fetched0 := m, seen, q, texts, fetched;
      m := m - 1;
      var url := q[0];
      q := q[1..];
      if url !in seen {
        seen := seen + {url};
        fetched := fetched + [url];
        texts, q := VisitPage(w, root, url, texts, q);
      }
      IterationPreserves(w, root, limit, d, m0, m, seen0, q0, texts0, fetched0, seen, q, texts, fetched);
    }
    CrawlDone(w, root, limit, d, m, seen, q, texts, fetched);
  }
}

=== FILE: density.dfy ===
/**
 * keyword_density: the percentage of token positions at which the
 * keyword's token sequence starts. Tokenisation (a `\w+` regular
 * expression over the lower-cased text) happens before this model: both
 * arguments are token sequences. Rounding to two decimals is not modelled;
 * the density is the exact ratio.
 */
module KeywordDensity {

  type Token = string

  /** Python's `tokens[i:i+len(kw)] == kw`: the slice is clipped at the end
      of `tokens`, so near the end it is shorter than `kw`. */
  predicate MatchesAt(tokens: seq<Token>, kw: seq<Token>, i: nat)
    requires i < |tokens|
  {
    var end := if i + |kw| <= |tokens| then i + |kw| else |tokens|;
    tokens[i..end] == kw
  }

  /** The number of positions below `n` at which `kw` matches. */
  function HitsBelow(tokens: seq<Token>, kw: seq<Token>, n: nat): (r: nat)
    requires n <= |tokens|
    ensures r <= n
  {
    if n == 0 then 0
    else HitsBelow(tokens, kw, n - 1) + (if MatchesAt(tokens, kw, n - 1) then 1 else 0)
  }

  /** `hits` in keyword_density: one for every position of `tokens`,
      overlapping occurrences included, at which `kw` starts. */
  function Hits(tokens: seq<Token>, kw: seq<Token>): (r: nat)
    ensures r <= |tokens|
  {
    HitsBelow(tokens, kw, |tokens|)
  }

  /** keyword_density before rounding: `100 * hits / max(1, len(tokens))`. */
  function Density(tokens: seq<Token>, kw: seq<Token>): (r: real)
    ensures 0.0 <= r <= 100.0
    ensures |tokens| == 0 ==> r == 0.0
  {
    var n := if |tokens| < 1 then 1 else |tokens|;
    RatioAtMostOne(Hits(tokens, kw), n);
    100.0 * (Hits(tokens, kw) as real / n as real)
  }

  lemma RatioAtMostOne(h: nat, n: nat)
    requires 0 < n && h <= n
    ensures 0.0 <= h as real / n as real <= 1.0
  {
  }

  /** The slice matches only when it is not clipped: the keyword lies
      wholly inside `tokens`. */
  lemma MatchesAtExactly(tokens: seq<Token>, kw: seq<Token>, i: nat)
    requires i < |tokens|
    ensures MatchesAt(tokens, kw, i) <==> i + |kw| <= |tokens| && tokens[i..i + |kw|] == kw
  {
  }

  /** The positions at which `kw` matches. */
  ghost function MatchPositions(tokens: seq<Token>, kw: seq<Token>, n: nat): set<nat>
    requires n <= |tokens|
  {
    set i: nat | i < n && MatchesAt(tokens, kw, i)
  }

  /** The count is the number of distinct matching positions, so
      overlapping occurrences each count once. */
  lemma {:induction false} HitsCountsPositions(tokens: seq<Token>, kw: seq<Token>, n: nat)
    requires n <= |tokens|
    ensures HitsBelow(tokens, kw, n) == |MatchPositions(tokens, kw, n)|
  {
    if n > 0 {
      HitsCountsPositions(tokens, kw, n - 1);
      var before := MatchPositions(tokens, kw, n - 1);
      if MatchesAt(tokens, kw, n - 1) {
        assert MatchPositions(tokens, kw, n) == before + {n - 1};
      } else {
        assert MatchPositions(tokens, kw, n) == before;
      }
    }
  }

  /** An empty keyword matches at every position: density 100 for any
      non-empty text. */
  lemma {:induction false} EmptyKeywordMatchesEverywhere(tokens: seq<Token>, n: nat)
    requires n <= |tokens|
    ensures HitsBelow(tokens, [], n) == n
    ensures n == |tokens| && n > 0 ==> Density(tokens, []) == 100.0
  {
    if n > 0 {
      EmptyKeywordMatchesEverywhere(tokens, n - 1);
      assert MatchesAt(tokens, [], n - 1);
    }
  }

  /** A non-empty keyword can only start where it fits, so it has at most
      `len(tokens) - len(kw) + 1` hits, and none when longer than the text. */
  lemma {:induction false} HitsFit(tokens: seq<Token>, kw: seq<Token>, n: nat)
    requires kw != [] && n <= |tokens|
    ensures |kw| > |tokens| ==> HitsBelow(tokens, kw, n) == 0
    ensures |kw| <= |tokens| ==> HitsBelow(tokens, kw, n) <= |tokens| - |kw| + 1
  {
    if n > 0 {
      HitsFit(tokens, kw, n - 1);
      MatchesAtExactly(tokens, kw, n - 1);
    }
  }

  /** Two overlapping occurrences are both counted. */
  lemma OverlappingBothCount()
    ensures Hits(["a", "a", "a"], ["a", "a"]) == 2
  {
    var t: seq<Token> := ["a", "a", "a"];
    assert t[0..2] == ["a", "a"] && t[1..3] == ["a", "a"] && t[2..3] != ["a", "a"];
  }
}

=== FILE: mcp.dfy ===
/**
 * The MCP server wrapper: `_instantiate` turns the "servers" section of the
 * loaded mcp_settings.json into server descriptors, and `connect_mcp`
 * connects each of them, hands the connected ones to the caller's body and,
 * in a `finally`, cleans up every server that connected.
 */
module Mcp {
  import opened Wrappers

  /** A value decoded by json.loads. Objects keep their key order, as a
      Python dict does. A dict never repeats a key, but nothing here rules
      out a repeated key in `JObj`; for one, `Lookup` takes the first
      match where json.loads keeps the last value. Numbers are exact
      rationals. */
  datatype Json =
    | JNull
    | JBool(b: bool)
    | JNum(n: real)
    | JStr(s: string)
    | JArr(items: seq<Json>)
    | JObj(fields: seq<(string, Json)>)

  /** `d[key]` on a dict: the value stored under `key`, or None for the
      KeyError. */
  function Lookup(fields: seq<(string, Json)>, key: string): (r: Option<Json>)
    ensures r.Some? <==> exists i | 0 <= i < |fields| :: fields[i].0 == key
    ensures r.Some? ==> exists i | 0 <= i < |fields| :: fields[i] == (key, r.value)
  {
    if fields == [] then None
    else if fields[0].0 == key then Some(fields[0].1)
    else Lookup(fields[1..], key)
  }

  /** `d.get(key, default)` on a dict. */
  function GetOr(fields: seq<(string, Json)>, key: string, default: Json): Json {
    match Lookup(fields, key)
    case Some(v) => v
    case None => default
  }

  /** Python truthiness of a decoded JSON value: null, false, zero and
      empty strings, arrays and objects are false. */
  predicate Truthy(v: Json): (b: bool)
    ensures !b <==> v in {JNull, JBool(false), JNum(0.0), JStr(""), JArr([]), JObj([])}
  {
    match v
    case JNull => false
    case JBool(b) => b
    case JNum(n) => n != 0.0
    case JStr(s) => s != []
    case JArr(items) => items != []
    case JObj(fields) => fields != []
  }

  /** A server descriptor: MCPServerStdio with its `command` and `args`
      parameters, or MCPServerSse with its `url` parameter; both are
      created with `cache_tools_list=True`. */
  datatype Server =
    | Stdio(name: string, command: Json, args: Json)
    | Sse(name: string, url: Json)

  /** What one enabled-or-not config entry contributes. */
  datatype EntryOutcome =
    | Disabled              // `enabled` missing or falsy: skipped
    | Built(server: Server) // a stdio or sse server
    | UnknownType           // any other `type`: dropped without a log line
    | MissingKey            // `type`, `command` or `url` missing: logged and skipped

  /** The AttributeError raised, outside the per-entry `try`, by `.get` or
      `.items` on a value that is not a dict; it ends `_instantiate`. */
  datatype InstantiateError = NotAMapping

  /** The servers built, in config order, and the names of the entries
      whose error was logged. */
  datatype Instantiated = Instantiated(servers: seq<Server>, logged: seq<string>)

  /** The `args` a stdio server is given: `cfg.get("args", [])`. */
  function ArgsOf(fields: seq<(string, Json)>): Json {
    GetOr(fields, "args", JArr([]))
  }

  /** One iteration of the loop of `_instantiate` for the entry `name: cfg`. */
  function Outcome(name: string, cfg: Json): (r: Result<EntryOutcome, InstantiateError>)
    ensures r.Failure? <==> !cfg.JObj?
    ensures r.Success? && r.value != Disabled ==> Truthy(GetOr(cfg.fields, "enabled", JNull))
    ensures r.Success? && r.value.Built? ==>
      && r.value.server.name == name
      && Lookup(cfg.fields, "type") == Some(JStr(if r.value.server.Stdio? then "stdio" else "sse"))
    ensures r == Success(MissingKey) ==>
      || Lookup(cfg.fields, "type").None?
      || (Lookup(cfg.fields, "type") == Some(JStr("stdio")) && Lookup(cfg.fields, "command").None?)
      || (Lookup(cfg.fields, "type") == Some(JStr("sse")) && Lookup(cfg.fields, "url").None?)
  {
    if !cfg.JObj? then Failure(NotAMapping)
    else if !Truthy(GetOr(cfg.fields, "enabled", JNull)) then Success(Disabled)
    else match Lookup(cfg.fields, "type")
      case None => Success(MissingKey)
      case Some(t) =>
        if t == JStr("stdio") then
          match Lookup(cfg.fields, "command")
          case None => Success(MissingKey)
          case Some(c) => Success(Built(Stdio(name, c, ArgsOf(cfg.fields))))
        else if t == JStr("sse") then
          match Lookup(cfg.fields, "url")
          case None => Success(MissingKey)
          case Some(u) => Success(Built(Sse(name, u)))
        else Success(UnknownType)
  }

  /** The accumulated result after one more entry. */
  function Add(acc: Instantiated, name: string, o: EntryOutcome): Instantiated {
    match o
    case Built(s) => Instantiated(acc.servers + [s], acc.logged)
    case MissingKey => Instantiated(acc.servers, acc.logged + [name])
    case _ => acc
  }

  /** The result of running the loop of `_instantiate` over `entries`. */
  function Collect(entries: seq<(string, Json)>): (r: Result<Instantiated, InstantiateError>)
    ensures r.Success? ==> forall n | n in r.value.logged :: exists i | 0 <= i < |entries| :: entries[i].0 == n
  {
    if entries == [] then Success(Instantiated([], []))
    else
      var last := entries[|entries| - 1];
      match Collect(entries[..|entries| - 1])
      case Failure(e) => Failure(e)
      case Success(acc) =>
        match Outcome(last.0, last.1)
        case Failure(e) => Failure(e)
        case Success(o) => Success(Add(acc, last.0, o))
  }

  /** `settings.mcp_cfg.get("servers", {}).items()`. */
  function Entries(cfg: Json): (r: Result<seq<(string, Json)>, InstantiateError>)
    ensures r.Failure? <==> !cfg.JObj? || (Lookup(cfg.fields, "servers").Some? && !Lookup(cfg.fields, "servers").value.JObj?)
    ensures cfg.JObj? && Lookup(cfg.fields, "servers").None? ==> r == Success([])
  {
    if !cfg.JObj? then Failure(NotAMapping)
    else match GetOr(cfg.fields, "servers", JObj([]))
      case JObj(entries) => Success(entries)
      case _ => Failure(NotAMapping)
  }

  /** The result of `_instantiate` for the settings `cfg`. */
  function Instantiate(cfg: Json): (r: Result<Instantiated, InstantiateError>)
    ensures !cfg.JObj? ==> r == Failure(NotAMapping)
    ensures cfg.JObj? && Lookup(cfg.fields, "servers").None? ==> r == Success(Instantiated([], []))
  {
    match Entries(cfg)
    case Failure(e) => Failure(e)
    case Success(entries) => Collect(entries)
  }

  /** Two loop results side by side: the loop over `a + b`, when neither
      half raises. */
  function Concat(x: Result<Instantiated, InstantiateError>, y: Result<Instantiated, InstantiateError>)
    : Result<Instantiated, InstantiateError>
  {
    if x.Failure? then x
    else if y.Failure? then y
    else Success(Instantiated(x.value.servers + y.value.servers, x.value.logged + y.value.logged))
  }

  /**
   * _instantiate: walks the configured entries in order, appending a
   * server for every enabled stdio or sse entry and logging the name of
   * every enabled entry that misses a required key.
   */
  method InstantiateServers(cfg: Json) returns (r: Result<Instantiated, InstantiateError>)
    ensures r == Instantiate(cfg)
    ensures r.Success? ==>
      Entries(cfg).Success? && |r.value.servers| + |r.value.logged| <= |Entries(cfg).value|
  {
    var entries;
    match Entries(cfg) {
      case Failure(e) => return Failure(e);
      case Success(es) => entries := es;
    }
    var servers: seq<Server> := [];
    var logged: seq<string> := [];
    for i := 0 to |entries|
      invariant Collect(entries[..i]) == Success(Instantiated(servers, logged))
    {
      var (name, entry) := entries[i];
      assert entries[..i + 1][..i] == entries[..i];
      if !entry.JObj? {
        CollectFailurePersists(entries[..i + 1], entries[i + 1..]);
        assert entries[..i + 1] + entries[i + 1..] == entries;
        return Failure(NotAMapping);
      }
      if !Truthy(GetOr(entry.fields, "enabled", JNull)) {
        continue;
      }
      var t := Lookup(entry.fields, "type");
      if t.None? {
        logged := logged + [name];
        continue;
      }
      if t.value == JStr("stdio") {
        var command := Lookup(entry.fields, "command");
        if command.None? {
          logged := logged + [name];
        } else {
          servers := servers + [Stdio(name, command.value, GetOr(entry.fields, "args", JArr([])))];
        }
      } else if t.value == JStr("sse") {
        var url := Lookup(entry.fields, "url");
        if url.None? {
          logged := logged + [name];
        } else {
          servers := servers + [Sse(name, url.value)];
        }
      }
    }
    assert entries[..|entries|] == entries;
    CollectBound(entries);
    r := Success(Instantiated(servers, logged));
  }

  /** Once an entry has raised, no later entry is looked at. */
  lemma {:induction false} CollectFailurePersists(a: seq<(string, Json)>, b: seq<(string, Json)>)
    requires Collect(a).Failure?
    ensures Collect(a + b) == Collect(a)
  {
    if b != [] {
      var ab := a + b;
      assert ab[..|ab| - 1] == a + b[..|b| - 1];
      CollectFailurePersists(a, b[..|b| - 1]);
    } else {
      assert a + b == a;
    }
  }

  /** The loop over `a + b` is the loop over `a` followed by the loop over
      `b`: an entry that is skipped or logged does not stop the later
      ones, and the output follows config order. */
  lemma {:induction false} CollectAppend(a: seq<(string, Json)>, b: seq<(string, Json)>)
    ensures Collect(a + b) == Concat(Collect(a), Collect(b))
  {
    if b == [] {
      assert a + b == a;
      if Collect(a).Success? {
        var x := Collect(a).value;
        assert x.servers + [] == x.servers && x.logged + [] == x.logged;
        assert Concat(Collect(a), Collect(b)) == Success(Instantiated(x.servers, x.logged));
      }
    } else {
      var ab := a + b;
      var b' := b[..|b| - 1];
      assert ab[..|ab| - 1] == a + b';
      assert ab[|ab| - 1] == b[|b| - 1];
      CollectAppend(a, b');
      var last := b[|b| - 1];
      if Collect(a).Success? && Collect(b').Success? && Outcome(last.0, last.1).Success? {
        var x, y := Collect(a).value, Collect(b').value;
        match Outcome(last.0, last.1).value {
          case Built(srv) =>
            assert (x.servers + y.servers) + [srv] == x.servers + (y.servers + [srv]);
          case MissingKey =>
            assert (x.logged + y.logged) + [last.0] == x.logged + (y.logged + [last.0]);
          case _ =>
        }
      }
    }
  }

  /** Each entry yields at most one server or one log line, so the output
      is no longer than the config. */
  lemma {:induction false} CollectBound(entries: seq<(string, Json)>)
    requires Collect(entries).Success?
    ensures |Collect(entries).value.servers| + |Collect(entries).value.logged| <= |entries|
  {
    if entries != [] {
      CollectBound(entries[..|entries| - 1]);
    }
  }

  /** The loop raises exactly when some entry is not a dict. */
  lemma {:induction false} CollectFailsIff(entries: seq<(string, Json)>)
    ensures Collect(entries).Failure? <==> exists i | 0 <= i < |entries| :: !entries[i].1.JObj?
  {
    if entries != [] {
      var init := entries[..|entries| - 1];
      CollectFailsIff(init);
      if exists i | 0 <= i < |init| :: !init[i].1.JObj? {
        var i :| 0 <= i < |init| && !init[i].1.JObj?;
        assert !entries[i].1.JObj?;
      }
      if exists i | 0 <= i < |entries| :: !entries[i].1.JObj? {
        var i :| 0 <= i < |entries| && !entries[i].1.JObj?;
        if i < |init| {
          assert !init[i].1.JObj?;
        }
      }
    }
  }

  /** Every server built comes from an enabled entry of the same name
      whose own outcome is that server. */
  lemma {:induction false} ServersFromEnabledEntries(entries: seq<(string, Json)>)
    requires Collect(entries).Success?
    ensures forall s | s in Collect(entries).value.servers ::
      exists i | 0 <= i < |entries| ::
        && entries[i].0 == s.name
        && entries[i].1.JObj? && Truthy(GetOr(entries[i].1.fields, "enabled", JNull))
        && Outcome(entries[i].0, entries[i].1) == Success(Built(s))
  {
    if entries != [] {
      var init := entries[..|entries| - 1];
      var n := |entries| - 1;
      ServersFromEnabledEntries(init);
      forall s | s in Collect(entries).value.servers
        ensures exists i | 0 <= i < |entries| ::
          && entries[i].0 == s.name
          && entries[i].1.JObj? && Truthy(GetOr(entries[i].1.fields, "enabled", JNull))
          && Outcome(entries[i].0, entries[i].1) == Success(Built(s))
      {
        if s in Collect(init).value.servers {
          var i :| 0 <= i < |init| && init[i].0 == s.name
            && init[i].1.JObj? && Truthy(GetOr(init[i].1.fields, "enabled", JNull))
            && Outcome(init[i].0, init[i].1) == Success(Built(s));
          assert entries[i] == init[i];
        } else {
          assert Outcome(entries[n].0, entries[n].1) == Success(Built(s));
        }
      }
    }
  }

  /** An entry without a truthy `enabled` contributes nothing: the result
      is the one for the config without it. */
  lemma DisabledEntryIgnored(pre: seq<(string, Json)>, name: string, cfg: Json, post: seq<(string, Json)>)
    requires cfg.JObj? && !Truthy(GetOr(cfg.fields, "enabled", JNull))
    ensures Collect(pre + [(name, cfg)] + post) == Collect(pre + post)
  {
    CollectAppend(pre + [(name, cfg)], post);
    CollectAppend(pre, [(name, cfg)]);
    CollectAppend(pre, post);
    assert ([] + [(name, cfg)])[..0] == [];
    assert [(name, cfg)][..0] == [];
    if Collect(pre).Success? {
      var p := Collect(pre).value;
      assert p.servers + [] == p.servers && p.logged + [] == p.logged;
    }
  }

  /** An enabled stdio entry with a `command` puts, at its own position,
      a stdio server carrying that command and its `args`, `[]` when
      absent. */
  lemma StdioEntryBuilt(pre: seq<(string, Json)>, name: string, cfg: Json, post: seq<(string, Json)>)
    requires cfg.JObj? && Truthy(GetOr(cfg.fields, "enabled", JNull))
    requires Lookup(cfg.fields, "type") == Some(JStr("stdio"))
    requires Lookup(cfg.fields, "command").Some?
    requires Collect(pre).Success? && Collect(post).Success?
    ensures Collect(pre + [(name, cfg)] + post) == Success(Instantiated(
      Collect(pre).value.servers + [Stdio(name, Lookup(cfg.fields, "command").value, GetOr(cfg.fields, "args", JArr([])))]
        + Collect(post).value.servers,
      Collect(pre).value.logged + Collect(post).value.logged))
  {
    CollectAppend(pre + [(name, cfg)], post);
    CollectAppend(pre, [(name, cfg)]);
    assert [(name, cfg)][..0] == [];
    var p := Collect(pre).value;
    assert p.logged + [] == p.logged;
  }

  /** An enabled sse entry with a `url` puts, at its own position, an sse
      server carrying that url. */
  lemma SseEntryBuilt(pre: seq<(string, Json)>, name: string, cfg: Json, post: seq<(string, Json)>)
    requires cfg.JObj? && Truthy(GetOr(cfg.fields, "enabled", JNull))
    requires Lookup(cfg.fields, "type") == Some(JStr("sse"))
    requires Lookup(cfg.fields, "url").Some?
    requires Collect(pre).Success? && Collect(post).Success?
    ensures Collect(pre + [(name, cfg)] + post) == Success(Instantiated(
      Collect(pre).value.servers + [Sse(name, Lookup(cfg.fields, "url").value)] + Collect(post).value.servers,
      Collect(pre).value.logged + Collect(post).value.logged))
  {
    CollectAppend(pre + [(name, cfg)], post);
    CollectAppend(pre, [(name, cfg)]);
    assert [(name, cfg)][..0] == [];
    var p := Collect(pre).value;
    assert p.logged + [] == p.logged;
  }

  /** An enabled entry of any other type is dropped without a log line. */
  lemma UnknownTypeDropped(pre: seq<(string, Json)>, name: string, cfg: Json, post: seq<(string, Json)>)
    requires cfg.JObj? && Truthy(GetOr(cfg.fields, "enabled", JNull))
    requires Lookup(cfg.fields, "type").Some?
    requires Lookup(cfg.fields, "type").value != JStr("stdio") && Lookup(cfg.fields, "type").value != JStr("sse")
    ensures Collect(pre + [(name, cfg)] + post) == Collect(pre + post)
  {
    CollectAppend(pre + [(name, cfg)], post);
    CollectAppend(pre, [(name, cfg)]);
    CollectAppend(pre, post);
    assert [(name, cfg)][..0] == [];
    if Collect(pre).Success? {
      var p := Collect(pre).value;
      assert p.servers + [] == p.servers && p.logged + [] == p.logged;
    }
  }

  /** An enabled entry missing `type`, or the `command` or `url` its type
      needs, is logged under its name and the later entries still run. */
  lemma MissingKeyLogged(pre: seq<(string, Json)>, name: string, cfg: Json, post: seq<(string, Json)>)
    requires cfg.JObj? && Truthy(GetOr(cfg.fields, "enabled", JNull))
    requires var t := Lookup(cfg.fields, "type");
      || t.None?
      || (t == Some(JStr("stdio")) && Lookup(cfg.fields, "command").None?)
      || (t == Some(JStr("sse")) && Lookup(cfg.fields, "url").None?)
    requires Collect(pre).Success? && Collect(post).Success?
    ensures Collect(pre + [(name, cfg)] + post) == Success(Instantiated(
      Collect(pre).value.servers + Collect(post).value.servers,
      Collect(pre).value.logged + [name] + Collect(post).value.logged))
  {
    CollectAppend(pre + [(name, cfg)], post);
    CollectAppend(pre, [(name, cfg)]);
    assert [(name, cfg)][..0] == [];
    var p := Collect(pre).value;
    assert p.servers + [] == p.servers;
  }

  /** How `await s.connect()` ends: it returns, raises an Exception (caught
      and logged), or is cancelled (asyncio.CancelledError, a
      BaseException the `except Exception` does not catch). */
  datatype ConnectAnswer = Connects | ConnectRaises | ConnectCancelled

  /** How `await s.cleanup()` ends: it returns, raises an Exception or is
      cancelled (both caught and logged), or raises another BaseException
      (KeyboardInterrupt, SystemExit), which no clause catches. */
  datatype CleanupAnswer = CleansUp | CleanupRaises | CleanupCancelled | CleanupInterrupted

  /** Where a server is in its lifecycle. */
  datatype Phase = Created | Connected | ConnectFailed | Cleaned | CleanupFailed

  /** How the body of the `async with connect_mcp()` block ends. */
  datatype BodyOutcome = BodyReturns | BodyRaises

  /** How `connect_mcp` ends: normally, or by propagating the exception of
      the body, of a cancelled connect, or of an interrupted cleanup (which
      replaces any exception already propagating). */
  datatype Exit = Completed | RaisedByBody | CancelledInConnect | InterruptedInCleanup

  /** A server instance together with the answers its connect and cleanup
      calls will give. */
  class Connection {
    const server: Server
    const connectAnswer: ConnectAnswer
    const cleanupAnswer: CleanupAnswer
    var phase: Phase
    /** The number of cleanup calls made on this server. */
    var cleanups: nat

    constructor (server: Server, connectAnswer: ConnectAnswer, cleanupAnswer: CleanupAnswer)
      ensures this.server == server && this.connectAnswer == connectAnswer
      ensures this.cleanupAnswer == cleanupAnswer
      ensures phase == Created && cleanups == 0
    {
      this.server := server;
      this.connectAnswer := connectAnswer;
      this.cleanupAnswer := cleanupAnswer;
      phase := Created;
      cleanups := 0;
    }

    /** `await s.connect()`. */
    method Connect() returns (a: ConnectAnswer)
      modifies this
      ensures a == connectAnswer && cleanups == old(cleanups)
      ensures phase == if a == Connects then Connected else ConnectFailed
    {
      a := connectAnswer;
      phase := if a == Connects then Connected else ConnectFailed;
    }

    /** `await s.cleanup()`. */
    method Cleanup() returns (a: CleanupAnswer)
      modifies this
      ensures a == cleanupAnswer && cleanups == old(cleanups) + 1
      ensures phase == if a == CleansUp then Cleaned else CleanupFailed
    {
      a := cleanupAnswer;
      cleanups := cleanups + 1;
      phase := if a == CleansUp then Cleaned else CleanupFailed;
    }
  }

  /** The position of the first connect that is cancelled, or `|conns|`:
      the connect loop stops there. */
  function FirstCancelled(conns: seq<Connection>): (m: nat)
    ensures m <= |conns|
    ensures forall i | 0 <= i < m :: conns[i].connectAnswer != ConnectCancelled
    ensures m < |conns| ==> conns[m].connectAnswer == ConnectCancelled
  {
    if conns == [] then 0
    else if conns[0].connectAnswer == ConnectCancelled then 0
    else 1 + FirstCancelled(conns[1..])
  }

  /** The position of the first cleanup that is interrupted, or
      `|connected|`: the cleanup loop stops after it. */
  function FirstInterrupted(connected: seq<Connection>): (k: nat)
    ensures k <= |connected|
    ensures forall j | 0 <= j < k :: connected[j].cleanupAnswer != CleanupInterrupted
    ensures k < |connected| ==> connected[k].cleanupAnswer == CleanupInterrupted
  {
    if connected == [] then 0
    else if connected[0].cleanupAnswer == CleanupInterrupted then 0
    else 1 + FirstInterrupted(connected[1..])
  }

  /** The servers whose connect returned, in their original order. */
  function Succeeded(conns: seq<Connection>): (r: seq<Connection>)
    ensures |r| <= |conns|
  {
    if conns == [] then []
    else
      var init := Succeeded(conns[..|conns| - 1]);
      if conns[|conns| - 1].connectAnswer == Connects then init + [conns[|conns| - 1]] else init
  }

  /** A server is kept exactly when it is one of the servers and its
      connect returned. */
  lemma {:induction false} SucceededExactly(conns: seq<Connection>)
    ensures forall c :: c in Succeeded(conns) <==> c in conns && c.connectAnswer == Connects
  {
    if conns != [] {
      var init := conns[..|conns| - 1];
      SucceededExactly(init);
      assert conns == init + [conns[|conns| - 1]];
    }
  }

  /** Filtering commutes with concatenation, so the kept servers keep
      their relative order. */
  lemma {:induction false} SucceededAppend(a: seq<Connection>, b: seq<Connection>)
    ensures Succeeded(a + b) == Succeeded(a) + Succeeded(b)
  {
    if b == [] {
      assert a + b == a;
    } else {
      var b' := b[..|b| - 1];
      assert (a + b)[..|a + b| - 1] == a + b';
      SucceededAppend(a, b');
    }
  }

  /** Distinct servers stay distinct after the filter. */
  lemma {:induction false} SucceededDistinct(conns: seq<Connection>)
    requires Distinct(conns)
    ensures Distinct(Succeeded(conns))
  {
    if conns != [] {
      var init := conns[..|conns| - 1];
      var last := conns[|conns| - 1];
      SucceededDistinct(init);
      SucceededExactly(init);
      assert last !in init;
    }
  }

  /** The connect loop of connect_mcp: connects every server in order and
      keeps those whose connect returned, until a connect is cancelled. */
  method ConnectAll(conns: seq<Connection>) returns (connected: seq<Connection>, cancelled: bool)
    requires Distinct(conns)
    requires forall c | c in conns :: c.phase == Created && c.cleanups == 0
    modifies set c | c in conns
    ensures connected == Succeeded(conns[..FirstCancelled(conns)])
    ensures cancelled <==> FirstCancelled(conns) < |conns|
    ensures forall j | 0 <= j < |conns| ::
      && conns[j].cleanups == 0
      && conns[j].phase ==
           if j > FirstCancelled(conns) then Created
           else if j < FirstCancelled(conns) && conns[j].connectAnswer == Connects then Connected
           else ConnectFailed
  {
    connected := [];
    cancelled := false;
    var i := 0;
    while i < |conns|
      invariant i <= FirstCancelled(conns)
      invariant connected == Succeeded(conns[..i])
      invariant forall j | 0 <= j < i ::
        conns[j].cleanups == 0 && conns[j].phase == if conns[j].connectAnswer == Connects then Connected else ConnectFailed
      invariant forall j | i <= j < |conns| :: conns[j].phase == Created && conns[j].cleanups == 0
    {
      assert forall j | 0 <= j < |conns| && j != i :: conns[j] != conns[i];
      var a := conns[i].Connect();
      if a == ConnectCancelled {
        cancelled := true;
        break;
      }
      assert conns[..i + 1][..i] == conns[..i];
      if a == Connects {
        connected := connected + [conns[i]];
      }
      i := i + 1;
    }
  }

  /** The cleanup loop in the `finally` of connect_mcp: cleans up every
      connected server once, in order, until a cleanup is interrupted. */
  method CleanupAll(connected: seq<Connection>) returns (interrupted: bool)
    requires Distinct(connected)
    requires forall c | c in connected :: c.phase == Connected && c.cleanups == 0
    modifies set c | c in connected
    ensures interrupted <==> FirstInterrupted(connected) < |connected|
    ensures forall j | 0 <= j < |connected| ::
      && connected[j].cleanups == (if j <= FirstInterrupted(connected) then 1 else 0)
      && connected[j].phase ==
           if j > FirstInterrupted(connected) then Connected
           else if connected[j].cleanupAnswer == CleansUp then Cleaned
           else CleanupFailed
  {
    var k := 0;
    interrupted := false;
    while k < |connected|
      invariant k <= FirstInterrupted(connected)
      invariant forall j | 0 <= j < k ::
        connected[j].cleanups == 1
        && connected[j].phase == if connected[j].cleanupAnswer == CleansUp then Cleaned else CleanupFailed
      invariant forall j | k <= j < |connected| :: connected[j].phase == Connected && connected[j].cleanups == 0
    {
      var a := connected[k].Cleanup();
      if a == CleanupInterrupted {
        interrupted := true;
        break;
      }
      k := k + 1;
    }
  }

  /**
   * connect_mcp: connects every server in order, keeping those whose
   * connect returned; a cancelled connect ends the loop. The body runs
   * only when the loop finished. Then, in the `finally`, every kept
   * server is cleaned up once, in order, whatever the earlier cleanups
   * did, unless a cleanup is interrupted, which ends the loop. Servers
   * that did not connect are never cleaned up.
   */
  method ConnectMcp(conns: seq<Connection>, body: BodyOutcome) returns (connected: seq<Connection>, exit: Exit)
    requires Distinct(conns)
    requires forall c | c in conns :: c.phase == Created && c.cleanups == 0
    modifies set c | c in conns
    ensures connected == Succeeded(conns[..FirstCancelled(conns)])
    ensures forall j | 0 <= j < |connected| ::
      && connected[j].cleanups == (if j <= FirstInterrupted(connected) then 1 else 0)
      && connected[j].phase ==
           if j > FirstInterrupted(connected) then Connected
           else if connected[j].cleanupAnswer == CleansUp then Cleaned
           else CleanupFailed
    ensures forall i | 0 <= i < |conns| && conns[i] !in connected ::
      && conns[i].cleanups == 0
      && conns[i].phase == if i <= FirstCancelled(conns) then ConnectFailed else Created
    ensures exit ==
      if FirstInterrupted(connected) < |connected| then InterruptedInCleanup
      else if FirstCancelled(conns) < |conns| then CancelledInConnect
      else if body == BodyRaises then RaisedByBody
      else Completed
  {
    var cancelled;
    connected, cancelled := ConnectAll(conns);
    ghost var m := FirstCancelled(conns);
    SucceededExactly(conns[..m]);
    SucceededDistinct(conns[..m]);
    assert forall c | c in connected :: c in conns && c.phase == Connected && c.cleanups == 0 by {
      forall c | c in connected ensures c in conns && c.phase == Connected && c.cleanups == 0 {
        var j :| 0 <= j < m && conns[..m][j] == c;
        assert conns[j] == c;
      }
    }
    assert forall j | 0 <= j < |conns| && conns[j] !in connected ::
      conns[j].cleanups == 0 && conns[j].phase == if j <= m then ConnectFailed else Created
    by {
      forall j | 0 <= j < |conns| && conns[j] !in connected
        ensures conns[j].cleanups == 0 && conns[j].phase == if j <= m then ConnectFailed else Created
      {
        if j < m {
          assert conns[j] in conns[..m];
        }
      }
    }
    // The body of the `async with` block runs here when every connect
    // returned; whatever it does, the `finally` below runs.
    var interrupted := CleanupAll(connected);
    exit :=
      if interrupted then InterruptedInCleanup
      else if cancelled then CancelledInConnect
      else if body == BodyRaises then RaisedByBody
      else Completed;
  }
}

=== FILE: vector_store.dfy ===
/**
 * build_vector_store: upload every crawled page as a file, then gather the
 * files into one named vector store and return its id.
 *
 * The remote service is a small class: what it has been sent and the
 * stores it holds are its state, and its answers are given in advance as
 * sequences of replies (an id, or None for a call that raises).
 */
module VectorStore {
  import opened Wrappers

  type FileId = string
  type StoreId = string

  datatype BuildError =
    | NoPages              // the RuntimeError raised for an empty `pages`
    | UploadFailed(url: string)  // files.create raised; `url` labels the page the loop stopped at
    | StoreFailed          // vector_stores.create raised

  /** The files and vector-store endpoints of the service. */
  class Service {
    /** The content of every files.create call, in call order. */
    var sent: seq<string>
    /** The replies to the coming files.create calls, in order; a call
        with no reply left raises. */
    var fileReplies: seq<Option<FileId>>
    /** The reply to the coming vector_stores.create call. */
    var storeReply: Option<StoreId>
    /** Every vector store created: its name and its file ids. */
    var stores: seq<(string, seq<FileId>)>

    constructor (fileReplies: seq<Option<FileId>>, storeReply: Option<StoreId>)
      ensures this.fileReplies == fileReplies && this.storeReply == storeReply
      ensures sent == [] && stores == []
    {
      this.fileReplies := fileReplies;
      this.storeReply := storeReply;
      sent := [];
      stores := [];
    }

    /** files.create: the content is sent whatever the reply. */
    method CreateFile(content: string) returns (r: Option<FileId>)
      modifies this
      ensures sent == old(sent) + [content]
      ensures r == Reply(old(fileReplies), 0)
      ensures fileReplies == if old(fileReplies) == [] then [] else old(fileReplies)[1..]
      ensures storeReply == old(storeReply) && stores == old(stores)
    {
      sent := sent + [content];
      if fileReplies == [] {
        r := None;
      } else {
        r := fileReplies[0];
        fileReplies := fileReplies[1..];
      }
    }

    /** vector_stores.create: a store exists afterwards only when the call
        returns its id. */
    method CreateStore(name: string, fileIds: seq<FileId>) returns (r: Option<StoreId>)
      modifies this
      ensures r == old(storeReply)
      ensures stores == if r.Some? then old(stores) + [(name, fileIds)] else old(stores)
      ensures sent == old(sent) && fileReplies == old(fileReplies) && storeReply == old(storeReply)
    {
      r := storeReply;
      if r.Some? {
        stores := stores + [(name, fileIds)];
      }
    }
  }

  /** The `i`-th coming reply; a missing one is a call that raises. */
  function Reply(replies: seq<Option<FileId>>, i: nat): Option<FileId> {
    if i < |replies| then replies[i] else None
  }

  /** The texts of `pages`, in iteration order. */
  function Texts(pages: seq<(string, string)>): (r: seq<string>)
    ensures |r| == |pages| && forall i | 0 <= i < |pages| :: r[i] == pages[i].1
  {
    seq(|pages|, i requires 0 <= i < |pages| => pages[i].1)
  }

  /** The replies left after `k` calls. */
  function Drop(replies: seq<Option<FileId>>, k: nat): seq<Option<FileId>> {
    if k <= |replies| then replies[k..] else []
  }

  /** The index of the first of the coming `n` uploads that raises, or `n`
      when none does. */
  function FirstFailure(replies: seq<Option<FileId>>, n: nat): (k: nat)
    ensures k <= n
    ensures forall i | 0 <= i < k :: Reply(replies, i).Some?
    ensures k < n ==> Reply(replies, k).None?
  {
    if n == 0 then 0
    else if FirstFailure(replies, n - 1) < n - 1 then FirstFailure(replies, n - 1)
    else if Reply(replies, n - 1).None? then n - 1
    else n
  }

  /** The ids returned by `n` uploads that all succeed, in call order. */
  function FileIds(replies: seq<Option<FileId>>, n: nat): (ids: seq<FileId>)
    requires FirstFailure(replies, n) == n
    ensures |ids| == n && forall i | 0 <= i < n :: Reply(replies, i) == Some(ids[i])
  {
    seq(n, i requires 0 <= i < n => Reply(replies, i).value)
  }

  /** The number of uploads attempted: up to and including the first
      one that raises. */
  function Attempted(replies: seq<Option<FileId>>, n: nat): nat {
    var k := FirstFailure(replies, n);
    if k < n then k + 1 else k
  }

  /** The upload loop of build_vector_store: uploads the texts in order
      and stops at the first upload that raises. */
  method UploadAll(api: Service, pages: seq<(string, string)>) returns (r: Result<seq<FileId>, BuildError>)
    modifies api
    ensures api.sent == old(api.sent) + Texts(pages[..Attempted(old(api.fileReplies), |pages|)])
    ensures api.fileReplies == Drop(old(api.fileReplies), Attempted(old(api.fileReplies), |pages|))
    ensures api.storeReply == old(api.storeReply) && api.stores == old(api.stores)
    ensures FirstFailure(old(api.fileReplies), |pages|) < |pages| ==>
      r == Failure(UploadFailed(pages[FirstFailure(old(api.fileReplies), |pages|)].0))
    ensures FirstFailure(old(api.fileReplies), |pages|) == |pages| ==>
      r == Success(FileIds(old(api.fileReplies), |pages|))
  {
    ghost var replies := api.fileReplies;
    var fileIds: seq<FileId> := [];
    for i := 0 to |pages|
      invariant FirstFailure(replies, i) == i
      invariant fileIds == FileIds(replies, i)
      invariant api.sent == old(api.sent) + Texts(pages[..i])
      invariant api.fileReplies == Drop(replies, i)
      invariant api.storeReply == old(api.storeReply) && api.stores == old(api.stores)
    {
      var (url, txt) := pages[i];
      var res := api.CreateFile(txt);
      TextsSnoc(pages, i);
      UploadStep(replies, |pages|, i);
      if res.None? {
        return Failure(UploadFailed(url));
      }
      FileIdsSnoc(replies, i);
      fileIds := fileIds + [res.value];
    }
    assert pages[..|pages|] == pages;
    return Success(fileIds);
  }

  /** Extending the prefix by one page adds that page's text at the end. */
  lemma TextsSnoc(pages: seq<(string, string)>, i: nat)
    requires i < |pages|
    ensures Texts(pages[..i + 1]) == Texts(pages[..i]) + [pages[i].1]
  {
    var a, b := Texts(pages[..i + 1]), Texts(pages[..i]) + [pages[i].1];
    forall k | 0 <= k < |a| ensures a[k] == b[k] {
      assert pages[..i + 1][k] == pages[k];
    }
  }

  /** One more upload: it gets the next reply, and the first failure and
      the attempts are settled once it raises. */
  lemma UploadStep(replies: seq<Option<FileId>>, n: nat, i: nat)
    requires i < n && FirstFailure(replies, i) == i
    ensures Drop(replies, i + 1) == if Drop(replies, i) == [] then [] else Drop(replies, i)[1..]
    ensures Reply(replies, i) == Reply(Drop(replies, i), 0)
    ensures Reply(replies, i).None? ==>
      FirstFailure(replies, n) == i && Attempted(replies, n) == i + 1
    ensures Reply(replies, i).Some? ==> FirstFailure(replies, i + 1) == i + 1
  {
  }

  /** One more upload that succeeds adds its id at the end. */
  lemma FileIdsSnoc(replies: seq<Option<FileId>>, i: nat)
    requires FirstFailure(replies, i + 1) == i + 1
    ensures FirstFailure(replies, i) == i
    ensures FileIds(replies, i + 1) == FileIds(replies, i) + [Reply(replies, i).value]
  {
    var a, b := FileIds(replies, i + 1), FileIds(replies, i) + [Reply(replies, i).value];
    forall k | 0 <= k < |a| ensures a[k] == b[k] {
    }
  }

  /**
   * build_vector_store: refuses an empty `pages`; otherwise uploads the
   * pages' texts one by one in iteration order, stops at the first upload
   * that raises, and creates the store, named `slugify(name)`, from all
   * the file ids once every upload has succeeded.
   */
  method Build(api: Service, pages: seq<(string, string)>, name: string, slugify: string -> string)
    returns (r: Result<StoreId, BuildError>)
    modifies api
    ensures pages == [] ==>
      r == Failure(NoPages) && api.sent == old(api.sent) && api.fileReplies == old(api.fileReplies)
    ensures pages != [] ==>
      && api.sent == old(api.sent) + Texts(pages[..Attempted(old(api.fileReplies), |pages|)])
      && api.fileReplies == Drop(old(api.fileReplies), Attempted(old(api.fileReplies), |pages|))
    ensures pages != [] && FirstFailure(old(api.fileReplies), |pages|) < |pages| ==>
      r == Failure(UploadFailed(pages[FirstFailure(old(api.fileReplies), |pages|)].0))
    ensures pages != [] && FirstFailure(old(api.fileReplies), |pages|) == |pages| ==>
      r == if old(api.storeReply).Some? then Success(old(api.storeReply).value) else Failure(StoreFailed)
    ensures r.Success? ==>
      && |pages| > 0 && FirstFailure(old(api.fileReplies), |pages|) == |pages|
      && api.stores == old(api.stores) + [(slugify(name), FileIds(old(api.fileReplies), |pages|))]
    ensures r.Failure? ==> api.stores == old(api.stores)
    ensures api.storeReply == old(api.storeReply)
  {
    if pages == [] {
      return Failure(NoPages);
    }
    var uploaded := UploadAll(api, pages);
    if uploaded.Failure? {
      return Failure(uploaded.error);
    }
    var vs := api.CreateStore(slugify(name), uploaded.value);
    if vs.None? {
      return Failure(StoreFailed);
    }
    return Success(vs.value);
  }
}

=== FILE: wrappers.dfy ===
/** Failure-carrying values shared by the modules of this model. */
module Wrappers {

  /** A value that may be missing: a failed fetch, an absent dictionary key. */
  datatype Option<+T> = None | Some(value: T)

  /** The outcome of an operation that either returns a value or raises. */
  datatype Result<+T, +E> = Success(value: T) | Failure(error: E)

  /** No element occurs twice. */
  predicate Distinct<T(==)>(s: seq<T>) {
    forall i, j | 0 <= i < j < |s| :: s[i] != s[j]
  }
}
